=== FILE: README.md ===
# LearningOpenGL demos 5–16: meshes, model-view matrices, the frame counter and the bitmap unpacker

This project is a Dafny model of the logic in the LearningOpenGL demos that is more than
graphics-API plumbing:

- **Triangle meshes.** The vertex and index tables of the square, the pentagon and the pyramid,
  and what one draw call emits:
  - `glDrawElements` fetches through an index list; `glDrawArrays` reads vertices in order.
  - Demo 11's `drawTrianglesAt` picks one of the two depending on whether the shape has indices.
  - Demo 5 stores the shapes as flat, pre-expanded lists. Demos 6, 7 and 8 store a corner table
    and a `GLushort` index list. The model proves that expanding the indexed tables gives exactly
    the flat ones.
- **The hand-built column-major model-view matrix** of Demos 5–7. The model gives its action on a
  homogeneous point, shows it is Demo 4's translation composed after an x/y scaling, and models
  Demo 8's `glScaled(scale, scale, 1.)`.
- **The perspective frustum constants** (`CENTER_Z` ∓ `DEPTH_OF_FIELD`/2) of Demos 8, 11 and 16.
- **The animation clocks:**
  - the SDL demos' 400-iteration `for` loop, whose frames are drawn with caller-supplied `cos` and
    `sin`;
  - the GLUT demos' `static int i` in `onDisplay`, which saturates at 400;
  - the depth and angle derived from either one, computed exactly over rationals.
- **`BuildMonochromeBitmap`** from Demo 16. It unpacks a one-bit-per-pixel bitmap, most
  significant bit first, into four RGBA bytes per pixel:
  - It is modelled as an imperative method over an array, with nested loop invariants.
  - Its reference definition is the pure function `Bitmap.Decoded` and the pixel predicate
    `Bitmap.PixelSet`.
  - Demo 16's smiley bitmap is shown to have exactly the size the 16 × 16 call reads. It is also
    shown to be mirror-symmetric, and so is the texture built from it.

Modules:

| module | contents |
|---|---|
| `Common` | `Byte`, `Ushort`, `Option`, `Pow2` |
| `Mesh` | `ShapeInfo`, vertex records, packed attribute arrays (`Group`/`Flatten`), `Draw` |
| `Transform` | column-major 4×4 matrices |
| `Projection` | frusta |
| `Animation` | the saturating counter |
| `Bitmap` | the unpacker |
| `Demo5`, `Demo6`, `Demo7`, `Demo8`, `Demo11`, `Demo16` | one per demo: tables, setups, frames |
| `Deindexing` | Demo 5 against Demo 6 |

Conventions:

- Float literals are exact rationals: `.47f` is 0.47 and `640.0f / 480.0f` is 4/3.
- A null `GLushort*` is `None`.
- Whether `malloc` succeeds is a `bool` parameter.
- The texture name `glGenTextures` returns is a `nat` parameter.
- A freshly declared, uninitialised `ShapeInfo` is a parameter (`previous`/`uninit`). Every setup
  overwrites both of its fields, so the model never reads it.

Two behaviours of `onDisplay` that are easy to misread:

- **The scene freezes.** Once the `onDisplay` counter saturates at 400, the angle, depth and spin
  are all computed from the frozen counter (OpenGLDemo11/OpenGLDemo11.cpp:79-90). Everything
  freezes together (`Demo11.SceneFreezes`, `Demo16.SceneFreezes`).
- **The first frame uses 1.** The counter is incremented before anything is drawn, so the first
  frame shown uses `i = 1` (`Animation.FirstFrameUsesOne`).

## Model

| member | source | states |
|---|---|---|
| Animation.Tick | OpenGLDemo16/OpenGLDemo16.cpp:270-273 | one redisplay raises the counter by at most one, and leaves it unchanged exactly when it has reached 400 |
| Animation.CounterAfterIsMin | OpenGLDemo11/OpenGLDemo11.cpp:79-82 | after n redisplays from the initial 0 the counter is min(n, 400) |
| Animation.CounterInRange | OpenGLDemo16/OpenGLDemo16.cpp:270-273 | the counter always lies in [0, 400] |
| Animation.CounterMonotone | OpenGLDemo16/OpenGLDemo16.cpp:270-273 | the counter never decreases from one redisplay to a later one |
| Animation.CounterStaysSaturated | OpenGLDemo11/OpenGLDemo11.cpp:79-82 | once the counter reaches 400 it stays at 400 |
| Animation.FirstFrameUsesOne | OpenGLDemo11/OpenGLDemo11.cpp:79-84 | the first redisplay draws with counter 1, not 0 |
| Animation.Depth | OpenGLDemo11/OpenGLDemo11.cpp:83 | defines `z = -i/200.` (also OpenGLDemo16/OpenGLDemo16.cpp:275): -200 z gives back the counter, and z is at most 0 exactly when the counter is non-negative |
| Animation.Angle | OpenGLDemo11/OpenGLDemo11.cpp:84 | defines `angle = i/30.` (also OpenGLDemo16/OpenGLDemo16.cpp:276): 30 times the angle gives back the counter, and the angle is non-negative exactly when the counter is |
| Animation.DepthInRange | OpenGLDemo11/OpenGLDemo11.cpp:83 | z = -i/200 stays in [-2, 0] over every reachable counter value |
| Animation.DepthNonIncreasing | OpenGLDemo11/OpenGLDemo11.cpp:83 | z never increases from one redisplay to a later one |
| Bitmap.MaskSelectsBit | OpenGLDemo16/OpenGLDemo16.cpp:119-120 | `next8 & mask` with the one-bit mask 2^j is non-zero exactly when bit j of the byte is set |
| Bitmap.TestMask | OpenGLDemo16/OpenGLDemo16.cpp:120 | the decoder's bitwise test returns true exactly when bit j is set |
| Bitmap.MaskHalves | OpenGLDemo16/OpenGLDemo16.cpp:119 | `mask >>= 1` walks 2^(7-k) to 2^(6-k), and to 0 after the last bit |
| Bitmap.UnpackBitsPixel | OpenGLDemo16/OpenGLDemo16.cpp:119-131 | the j-th pixel a byte unpacks to is opaque colour or transparent black according to bit 7 - j (most significant first) |
| Bitmap.UnpackBytesBlock | OpenGLDemo16/OpenGLDemo16.cpp:116-118 | byte i of the source becomes output bytes 32i to 32i + 31 |
| Bitmap.UnpackBytesPixel | OpenGLDemo16/OpenGLDemo16.cpp:116-131 | output bytes 32i + 4j to 32i + 4j + 3 are the texel of bit 7 - j of source byte i |
| Bitmap.DecodedSize | OpenGLDemo16/OpenGLDemo16.cpp:113 | the image is width * height * 4 bytes, the size the buffer is allocated with |
| Bitmap.DecodedPixel | OpenGLDemo16/OpenGLDemo16.cpp:116-131 | pixel (y, x) is (red, green, blue, 255) when bit 7 - x%8 of byte y*(width/8) + x/8 is set and (0, 0, 0, 0) when it is clear |
| Bitmap.DecodedShowsBitmap | OpenGLDemo16/OpenGLDemo16.cpp:111-137 | the reference image shows every pixel of the bitmap, and has exactly width * height * 4 bytes |
| Bitmap.DecodedAlphaBinary | OpenGLDemo16/OpenGLDemo16.cpp:120-131 | every alpha byte of the image is 0 or 255 |
| Bitmap.DecodedReadsPrefix | OpenGLDemo16/OpenGLDemo16.cpp:116-118 | the image depends only on the first (width/8) * height bytes of the source |
| Bitmap.PutTexel | OpenGLDemo16/OpenGLDemo16.cpp:120-131 | the `if (next8 & mask)` branches append (red, green, blue, 255) when the bit is set and four zeros when it is clear, keeping what was written before |
| Bitmap.UnpackByteInto | OpenGLDemo16/OpenGLDemo16.cpp:118-131 | the mask loop appends the byte's eight texels at the write pointer and keeps what was written before |
| Bitmap.UnpackRowInto | OpenGLDemo16/OpenGLDemo16.cpp:117-133 | one row reads the next width/8 source bytes in order and appends their pixels after the earlier rows' |
| Bitmap.UnpackRows | OpenGLDemo16/OpenGLDemo16.cpp:116-134 | the rows fill the whole buffer with the unpacked first (width/8) * height source bytes, and consume exactly that many |
| Bitmap.BuildMonochromeBitmap | OpenGLDemo16/OpenGLDemo16.cpp:111-137 | a failed allocation gives null and reads nothing; otherwise the result is the reference image, pixel for pixel, and exactly (width/8) * height source bytes are consumed |
| Mesh.Positions2 | OpenGLDemo6/OpenGLDemo6.cpp:92 | `glVertexPointer(2, GL_FLOAT, sizeof(VertexInfo), &data[0].x)` reads one position per vertex, and position k is vertex k's (x, y) in that order |
| Mesh.PositionsCommuteWithExpand | OpenGLDemo6/OpenGLDemo6.cpp:92-112 | reading the positions out of the records and fetching through an index list can be done in either order |
| Mesh.Group | OpenGLDemo6/OpenGLDemo6.cpp:61 | a tightly packed array bound with `size` components per vertex holds floor(length / size) uniform vertices |
| Mesh.GroupReadsBlock | OpenGLDemo6/OpenGLDemo6.cpp:61 | vertex i of a packed array is components [i*size, i*size + size) |
| Mesh.FlattenGroup | OpenGLDemo6/OpenGLDemo6.cpp:69 | laying the vertices out again gives back every component that was read |
| Mesh.GroupFlatten | OpenGLDemo6/OpenGLDemo6.cpp:69 | grouping a packed array of same-sized vertices gives back the vertices |
| Mesh.Fetched | OpenGLDemo11/OpenGLDemo11.cpp:69-74 | a draw reads count vertex numbers, all inside the vertex table |
| Mesh.Draw | OpenGLDemo11/OpenGLDemo11.cpp:69-74 | with indices the draw emits verts[idx[k]] for k < count; without, it emits verts[0..count) in order |
| Mesh.Expand | OpenGLDemo6/OpenGLDemo6.cpp:112 | defines the vertex stream an index list selects: one vertex per index, each from the table, and equal indices give equal vertices |
| Mesh.IdentityIndicesDrawSequentially | OpenGLDemo11/OpenGLDemo11.cpp:69-74 | drawing through the index list 0..n-1 emits the same stream as the sequential path |
| Transform.ModelView | OpenGLDemo6/OpenGLDemo6.cpp:104-109 | defines the hand-built `modelViewMatrix` read column-major: scale, scale, 1, 1 on the diagonal, (x, y) at rows 0 and 1 of the last column, zero elsewhere (the same matrix as OpenGLDemo5/OpenGLDemo5.cpp:94-99 and OpenGLDemo7/OpenGLDemo7.cpp:111-116) |
| Transform.Translation | OpenGLDemo4/OpenGLDemo4.cpp:64-69 | defines Demo 4's `translationMatrix` read column-major: the identity with (x, y) at rows 0 and 1 of the last column |
| Transform.Scaling | OpenGLDemo8/OpenGLDemo8.cpp:97 | defines the matrix `glScaled(sx, sy, sz)` multiplies in: sx, sy, sz, 1 on the diagonal and zero elsewhere |
| Transform.ModelViewAction | OpenGLDemo6/OpenGLDemo6.cpp:104-109 | the matrix maps (vx, vy, vz, 1) to (scale*vx + x, scale*vy + y, vz, 1) |
| Transform.ModelViewIsTranslateAfterScale | OpenGLDemo6/OpenGLDemo6.cpp:104-109 | read column-major, the matrix is the translation by (x, y) composed after scaling by (scale, scale, 1) |
| Transform.ModelViewUnitScale | OpenGLDemo4/OpenGLDemo4.cpp:64-69 | with scale 1 the matrix is Demo 4's translation matrix |
| Transform.FlatScalingKeepsDepth | OpenGLDemo8/OpenGLDemo8.cpp:97 | `glScaled(scale, scale, 1.)` scales x and y and leaves z alone |
| Transform.PlaceModelView | OpenGLDemo6/OpenGLDemo6.cpp:104-112 | every drawn 2-D position lands at scale * p + (x, y) on the z = 0 plane |
| Projection.FromDepthOfField | OpenGLDemo8/OpenGLDemo8.cpp:111 | defines the `glFrustum` arguments: left and right at -ratio and ratio, bottom and top at -1 and 1, near and far DEPTH_OF_FIELD apart |
| Projection.FromDepthOfFieldValid | OpenGLDemo8/OpenGLDemo8.cpp:111 | the frustum built from a ratio, CENTER_Z and DEPTH_OF_FIELD is a valid perspective frustum exactly when the ratio and depth of field are positive and the near plane is in front of the eye |
| Projection.FromDepthOfFieldCentred | OpenGLDemo8/OpenGLDemo8.cpp:42-43 | the near and far planes are centred on CENTER_Z and DEPTH_OF_FIELD apart |
| Demo5.SetupSquare | OpenGLDemo5/OpenGLDemo5.cpp:47-63 | the returned 6 is the vertex count of both arrays (coordinates / 2, colours / 3) and a whole number of triangles |
| Demo5.SetupPentagon | OpenGLDemo5/OpenGLDemo5.cpp:73-88 | the returned 9 is the length of pentagonData and a whole number of triangles |
| Demo5.DrawTrianglesAt | OpenGLDemo5/OpenGLDemo5.cpp:91-103 | the k-th emitted vertex is the k-th position scaled and moved to (x, y), for k < indexCount |
| Demo6.SetupSquare | OpenGLDemo6/OpenGLDemo6.cpp:53-75 | both fields are overwritten; count 6 is the index-list length and a multiple of 3; every index is below 4, the vertex count of both arrays; each of the 4 corners is used |
| Demo6.SetupPentagon | OpenGLDemo6/OpenGLDemo6.cpp:77-99 | both fields are overwritten; count 9 is the index-list length and a multiple of 3; every index is below 5; each of the 5 corners is used |
| Demo6.DrawTrianglesAt | OpenGLDemo6/OpenGLDemo6.cpp:101-113 | the k-th emitted vertex is the position of corner idx[k], scaled and moved to (x, y) |
| Deindexing.SquareRoundTrip | OpenGLDemo5/OpenGLDemo5.cpp:47-60 | Demo 6's square positions and colours fetched through {0,1,2,2,3,0} are exactly Demo 5's flat arrays |
| Deindexing.SquarePositionsRoundTrip | OpenGLDemo6/OpenGLDemo6.cpp:55-71 | the square's corner positions expanded through its index list are Demo 5's six positions |
| Deindexing.SquareColorsRoundTrip | OpenGLDemo6/OpenGLDemo6.cpp:63-71 | the square's corner colours expanded through its index list are Demo 5's six colours |
| Deindexing.PentagonRoundTrip | OpenGLDemo5/OpenGLDemo5.cpp:73-83 | Demo 6's pentagon fetched through {0,1,2,2,3,0,0,3,4} is exactly Demo 5's nine-entry pentagonData |
| Deindexing.PentagonPositionsRoundTrip | OpenGLDemo5/OpenGLDemo5.cpp:73-85 | the positions Demo 6's glVertexPointer reads from its pentagon, fetched through {0,1,2,2,3,0,0,3,4}, are the nine positions Demo 5 reads |
| Deindexing.IndexedDrawIsFlatDraw | OpenGLDemo6/OpenGLDemo6.cpp:101-113 | for every position table, every index list drawable against it and every placement, Demo 6's glDrawElements path emits the same transformed vertices as Demo 5's glDrawArrays path over the de-indexed table with the same count |
| Deindexing.SquareDrawsAlike | OpenGLDemo5/OpenGLDemo5.cpp:91-103 | for any placement, Demo 5 and Demo 6 emit the same transformed square |
| Deindexing.PentagonDrawsAlike | OpenGLDemo6/OpenGLDemo6.cpp:101-113 | for any placement, Demo 5 and Demo 6 emit the same transformed pentagon |
| Demo7.SetupSquare | OpenGLDemo7/OpenGLDemo7.cpp:60-82 | count 6 and indices {0,1,2,2,3,0}, all below the 4 corners of both the coordinate and the colour array, a whole number of triangles |
| Demo7.SetupPentagon | OpenGLDemo7/OpenGLDemo7.cpp:84-106 | count 9 and indices all below the 5 corners, a whole number of triangles |
| Demo7.SameShapesAsDemo6 | OpenGLDemo7/OpenGLDemo7.cpp:60-106 | Demo 7's square corners and colours, pentagon table, both index lists and both setups are equal to Demo 6's |
| Demo7.Frame | OpenGLDemo7/OpenGLDemo7.cpp:133-144 | defines one frame's five draws: a scale-0.5 square fixed at the centre; a scale-0.25 square and three scale-0.5 pentagons on the circle of radius 0.5 times the length of (cos, sin), the small square opposite the first pentagon and the other two pentagons its reflections in the x and y axes |
| Demo7.FrameUsesFreshShapes | OpenGLDemo7/OpenGLDemo7.cpp:136-144 | reusing one ShapeInfo leaves nothing stale: the square draws use the square's indices and count, the pentagon draws the pentagon's, whatever the record held before |
| Demo7.RunAnimation | OpenGLDemo7/OpenGLDemo7.cpp:132-147 | the loop draws exactly 400 frames, frame i with cos(i/30) and sin(i/30) |
| Demo8.ViewFrustumPlanes | OpenGLDemo8/OpenGLDemo8.cpp:111 | near = 1 > 0 and far = 3 > near: a valid perspective frustum |
| Demo8.SetupPentagon | OpenGLDemo8/OpenGLDemo8.cpp:68-90 | count 9 is the index-list length, a multiple of 3, every index is below 5, and each of the 5 corners is used |
| Demo8.DepthSweep | OpenGLDemo8/OpenGLDemo8.cpp:113-114 | depth 1 - i/200 starts at 1 and strictly decreases over the 400 frames, yet stays above -1: the last frame is at -0.995 |
| Demo8.Depth | OpenGLDemo8/OpenGLDemo8.cpp:114 | defines `depth = 1. - i/200.`: 200 (1 - depth) gives back the frame number, and depth is at most 1 exactly when the frame number is non-negative |
| Demo8.Frame | OpenGLDemo8/OpenGLDemo8.cpp:114-122 | defines one frame's three draws: all the pentagon at the frame's depth, with strictly shrinking scales, on the circle of radius 0.707 times the length of (cos, sin), the second and third the first's reflections in the x and y axes |
| Demo8.RunAnimation | OpenGLDemo8/OpenGLDemo8.cpp:113-125 | the loop draws exactly 400 frames, frame i at depth 1 - i/200 with cos(i/30) and sin(i/30) |
| Demo8.FramesDrawPentagonAtDepth | OpenGLDemo8/OpenGLDemo8.cpp:118-122 | every draw of a frame is the full pentagon at that frame's depth, inside (-1, 1] |
| Demo11.ViewFrustumPlanes | OpenGLDemo11/OpenGLDemo11.cpp:117 | near = 3.5 > 0 and far = 8.5 > near: a valid perspective frustum |
| Demo11.SetupPyramid | OpenGLDemo11/OpenGLDemo11.cpp:28-59 | indices are null and count 12 is the length of pyramidData and a multiple of 3 |
| Demo11.PyramidFaces | OpenGLDemo11/OpenGLDemo11.cpp:35-52 | the bottom triangle lies in y = 0; its three corners are distinct; each side's first two corners sit at the two ends of a base edge, the three sides use the three different edges, and each side's third corner is the apex (0, 0.75, 0) |
| Demo11.PyramidDrawsInOrder | OpenGLDemo11/OpenGLDemo11.cpp:69-74 | with null indices the draw emits the table in order, the same as through the index list 0..11 |
| Demo11.OnDisplay | OpenGLDemo11/OpenGLDemo11.cpp:77-90 | the counter is bumped first; all three pyramids are placed at depth -i/200 and angle i/30 of the new counter |
| Demo11.SceneFreezes | OpenGLDemo11/OpenGLDemo11.cpp:79-90 | from the 400th redisplay on, every redisplay draws the same placements |
| Demo11.PyramidOriginInDepthRange | OpenGLDemo11/OpenGLDemo11.cpp:65 | each pyramid's origin, at eye depth z - CENTER_Z, lies between the far and near planes on every redisplay |
| Demo16.ViewFrustumPlanes | OpenGLDemo16/OpenGLDemo16.cpp:305 | near = 3.5 > 0 and far = 8.5 > near: a valid perspective frustum |
| Demo16.SetupPyramid | OpenGLDemo16/OpenGLDemo16.cpp:208-250 | count 12 is the length of pyramidData and a multiple of 3, and the pyramid is drawn without indices |
| Demo16.PyramidDrawsInOrder | OpenGLDemo16/OpenGLDemo16.cpp:265 | glDrawArrays emits the whole table in order |
| Demo16.TextureCoordinatesRepeatOnlyOnSideThree | OpenGLDemo16/OpenGLDemo16.cpp:218-235 | only side 3 has texture coordinates outside [0, 1] |
| Demo16.OnDisplay | OpenGLDemo16/OpenGLDemo16.cpp:268-277 | the counter is bumped first; the single pyramid is placed at depth -i/200, angle i/30, scale 2 |
| Demo16.SceneFreezes | OpenGLDemo16/OpenGLDemo16.cpp:268-277 | from the 400th redisplay on, the pyramid stays where it is |
| Demo16.SmileyWellformed | OpenGLDemo16/OpenGLDemo16.cpp:139-165 | BIT_BYTES = (16/8) * 16 = 32 is the length of the smiley array, exactly what the 16 × 16 call reads |
| Demo16.RowPixel | OpenGLDemo16/OpenGLDemo16.cpp:116-120 | in a 16-pixel-wide bitmap, pixel (y, x) is bit 7 - x%8 of byte x/8 of row y |
| Demo16.MirroredRowSymmetric | OpenGLDemo16/OpenGLDemo16.cpp:116-120 | a row whose second byte is its first read backwards is symmetric about its centre |
| Demo16.SmileySymmetric | OpenGLDemo16/OpenGLDemo16.cpp:146-163 | the smiley is symmetric about its vertical centre line |
| Demo16.TextureSymmetric | OpenGLDemo16/OpenGLDemo16.cpp:165 | the texture built from the smiley is mirror-symmetric too: texel (y, x) equals texel (y, 15 - x) |
| Demo16.SetupTextures | OpenGLDemo16/OpenGLDemo16.cpp:143-187 | a texture is bound exactly when the allocation and glGenTextures both succeed; it then receives 1024 bytes showing the smiley in opaque red on transparent black |

## Left out

- Windowing and the event loop are not modelled. This covers SDL/GLUT/GLEW initialisation, swap
  intervals, `glClear`, buffer swaps, `SDL_Delay` and the key handler's `exit(0)`: all I/O and
  foreign calls.
- Shaders are not modelled: their source strings and the compile, link and uniform-lookup calls
  are foreign GPU API.
- GPU resources are not modelled: buffer objects, vertex array objects, attribute pointers and
  `offsetof` layouts, `glTexStorage2D`, mipmaps, samplers and `free`. `Demo16.SetupTextures`
  keeps only the decisions the C code makes: whether the allocation succeeded, whether the texture
  name is 0, and the pixels that are uploaded.
- `vmath` and the legacy matrix stack are not modelled: `vmath::translate/rotate/scale/frustum`,
  `glTranslated`, `glRotated`, `gluLookAt`, `glFrustum`/`glOrtho`.
  - Rotation needs trigonometry, and the `vmath` header is not part of this model.
  - The frusta are modelled only by their six plane parameters.
  - Demo 8 is modelled only by its `glScaled` factor.
  - Demos 11 and 16 are modelled only by their placement parameters (`Placement`).
- Trigonometry is not modelled. `cos`/`sin` are function parameters of the Demo 7 and 8 loops. In
  Demos 11 and 16 the position (cos a, sin a) is kept as its angle a, plus the phase index k of
  the added k * 2π/3.
- Floating point is not modelled. Every `float`/`double` is an exact rational, so rounding in
  `i/200.`, `i/30.`, `640.0f / 480.0f`, `.433f` and the like is not reproduced.
- Bitmap.BuildMonochromeBitmap: requires `width % 8 == 0`, non-negative sizes and enough source
  bytes; it is not modelled for other widths, negative sizes or a short source.
  - With other widths the C code leaves trailing pixels of each row unwritten and misaligns rows.
  - The only caller passes 16 × 16 and a 32-byte array.
- Bitmap.BuildMonochromeBitmap: does not model the 32-bit `int` overflow of `width * height * 4`.
  Integers are unbounded here, and the only caller's product is 1024.
- Demo 7's `drawTrianglesAt` (OpenGLDemo7/OpenGLDemo7.cpp:108-120) has no member of its own. It is
  Demo 6's line for line, so a `Demo7.DrawCall` is rendered by `Demo6.DrawTrianglesAt`.
- Demo 11's `onDisplay` calls `setupPyramid` on every redisplay. `Demo11.OnDisplay` returns only
  the placements. The shape they draw is `Demo11.SetupPyramid`'s, whatever the fresh record held
  (`Demo11.PyramidDrawsInOrder`).
- Demos 1–4, 9, 12, 12.5, 13, 14 and 15 are not modelled. Apart from GL plumbing they hold
  immediate-mode calls, or copies of the pyramid table, counter and draw dispatch covered through
  Demos 11 and 16. Demo 4's translation matrix is modelled only as the partner of
  `Transform.ModelViewUnitScale`.

=== FILE: animation.dfy ===
/**
 * The animation clock of the GLUT demos: onDisplay's `static int i`, bumped
 * on every redisplay until it reaches 400, and the depth and angle derived
 * from it.
 */
module Animation {

  /** The value the frame counter stops at. */
  const MaxFrame: int := 400

  /** One call of onDisplay: `if (i < 400) i++;`. */
  function Tick(i: int): (r: int)
    ensures i <= r <= i + 1
    ensures r == i <==> MaxFrame <= i
  {
    if i < MaxFrame then i + 1 else i
  }

  /** The counter after n redisplays, starting from the static initialiser 0. */
  function CounterAfter(n: nat): int
  {
    if n == 0 then 0 else Tick(CounterAfter(n - 1))
  }

  /** The counter equals the number of redisplays until it saturates at 400. */
  lemma {:induction false} CounterAfterIsMin(n: nat)
    ensures CounterAfter(n) == if n < MaxFrame then n else MaxFrame
  {
    if n > 0 {
      CounterAfterIsMin(n - 1);
    }
  }

  /** The counter always lies in [0, 400]. */
  lemma CounterInRange(n: nat)
    ensures 0 <= CounterAfter(n) <= MaxFrame
  {
    CounterAfterIsMin(n);
  }

  /** The counter never goes down. */
  lemma CounterMonotone(m: nat, n: nat)
    requires m <= n
    ensures CounterAfter(m) <= CounterAfter(n)
  {
    CounterAfterIsMin(m);
    CounterAfterIsMin(n);
  }

  /** Once it reaches 400 it stays there. */
  lemma CounterStaysSaturated(m: nat, n: nat)
    requires m <= n && CounterAfter(m) == MaxFrame
    ensures CounterAfter(n) == MaxFrame
  {
    CounterAfterIsMin(m);
    CounterAfterIsMin(n);
  }

  /** The counter is incremented before anything is drawn: the first frame shown uses i = 1. */
  lemma FirstFrameUsesOne()
    ensures CounterAfter(1) == 1
  {
  }

  /** `z = -i/200.`: the depth offset of the drawn shapes, as an exact rational. */
  function Depth(i: int): (z: real)
    ensures -200.0 * z == i as real
    ensures z <= 0.0 <==> 0 <= i
  {
    -(i as real) / 200.0
  }

  /** `angle = i/30.`: the orbit angle in radians, as an exact rational. */
  function Angle(i: int): (angle: real)
    ensures 30.0 * angle == i as real
    ensures 0.0 <= angle <==> 0 <= i
  {
    i as real / 30.0
  }

  /** Over every reachable counter value the depth stays within [-2, 0]. */
  lemma DepthInRange(n: nat)
    ensures -2.0 <= Depth(CounterAfter(n)) <= 0.0
  {
    CounterInRange(n);
  }

  /** Frame after frame the shapes only move away from the viewer. */
  lemma DepthNonIncreasing(m: nat, n: nat)
    requires m <= n
    ensures Depth(CounterAfter(n)) <= Depth(CounterAfter(m))
  {
    CounterMonotone(m, n);
  }
}

=== FILE: bitmap.dfy ===
/**
 * Demo 16's BuildMonochromeBitmap: a 1-bit-per-pixel bitmap unpacked into an
 * RGBA texture, four bytes per pixel, rows stored one after another and each
 * byte read most significant bit first.
 */
module Bitmap {
  import opened Common

  /** Bit j of a byte, bit 0 being the least significant. */
  predicate BitSet(b: Byte, j: nat)
  {
    (b / Pow2(j)) % 2 == 1
  }

  /** The decoder's test `next8 & mask`, taken bitwise on the byte. */
  predicate MaskHits(b: Byte, mask: Byte)
  {
    (b as bv8) & (mask as bv8) != 0
  }

  /** ANDing with the one-bit mask 2^j picks out bit j. */
  lemma MaskSelectsBit(b: Byte, j: nat)
    requires j < 8
    ensures Pow2(j) <= 128
    ensures MaskHits(b, Pow2(j)) <==> BitSet(b, j)
  {
    PowersOfTwo();
  }

  /** The four bytes one source bit becomes: an opaque pixel of the colour, or transparent black. */
  function Texel(lit: bool, red: Byte, green: Byte, blue: Byte): seq<Byte>
  {
    if lit then [red, green, blue, 255] else [0, 0, 0, 0]
  }

  /** The first k pixels one byte unpacks to, taking its bits from the most significant down. */
  function UnpackBits(b: Byte, k: nat, red: Byte, green: Byte, blue: Byte): (out: seq<Byte>)
    requires k <= 8
    ensures |out| == 4 * k
  {
    if k == 0 then [] else UnpackBits(b, k - 1, red, green, blue) + Texel(BitSet(b, 8 - k), red, green, blue)
  }

  /** The eight pixels one byte unpacks to. */
  function UnpackByte(b: Byte, red: Byte, green: Byte, blue: Byte): (out: seq<Byte>)
    ensures |out| == 32
  {
    UnpackBits(b, 8, red, green, blue)
  }

  /** A run of bytes unpacked one after another. */
  function UnpackBytes(s: seq<Byte>, red: Byte, green: Byte, blue: Byte): (out: seq<Byte>)
    ensures |out| == 32 * |s|
  {
    if |s| == 0 then []
    else UnpackBytes(s[..|s| - 1], red, green, blue) + UnpackByte(s[|s| - 1], red, green, blue)
  }

  /**
   * What the caller must hand the decoder: non-negative sizes, a width that is
   * a whole number of bytes, and at least (width/8)*height bytes of bits.
   */
  predicate Wellformed(bits: seq<Byte>, width: int, height: int)
  {
    0 <= width && 0 <= height && width % 8 == 0 && (width / 8) * height <= |bits|
  }

  /**
   * The RGBA image the decoder produces. A row is width/8 whole bytes, so rows
   * follow each other without padding and the image is the first
   * (width/8)*height bytes unpacked in order.
   */
  function Decoded(bits: seq<Byte>, width: int, height: int, red: Byte, green: Byte, blue: Byte): seq<Byte>
    requires Wellformed(bits, width, height)
  {
    UnpackBytes(bits[..(width / 8) * height], red, green, blue)
  }

  /** Pixel (y, x) of the source bitmap: bit 7 - x%8 of byte y*(width/8) + x/8. */
  predicate PixelSet(bits: seq<Byte>, width: int, height: int, y: int, x: int)
    requires Wellformed(bits, width, height)
    requires 0 <= y < height && 0 <= x < width
  {
    PixelIndexInRange(width, height, y, x);
    BitSet(bits[y * (width / 8) + x / 8], 7 - x % 8)
  }

  /** The four bytes of pixel (y, x) in an RGBA image of the given width. */
  function PixelAt(image: seq<Byte>, width: int, y: int, x: int): seq<Byte>
    requires 0 <= y && 0 <= x < width
    requires (y * width + x) * 4 + 4 <= |image|
  {
    image[(y * width + x) * 4 .. (y * width + x) * 4 + 4]
  }

  lemma PixelIndexInRange(width: int, height: int, y: int, x: int)
    requires 0 <= width && width % 8 == 0 && 0 <= y < height && 0 <= x < width
    ensures 0 <= y * (width / 8) + x / 8 < (width / 8) * height
    ensures (y * width + x) * 4 + 4 <= width * height * 4
    ensures (y * width + x) * 4 == 32 * (y * (width / 8) + x / 8) + 4 * (x % 8)
  {
    var w8 := width / 8;
    assert width == 8 * w8;
    assert x / 8 < w8;
    assert y * w8 + x / 8 < (y + 1) * w8 <= height * w8;
    assert y * width + x < (y + 1) * width <= height * width;
    assert y * width == 8 * (y * w8);
    assert x == 8 * (x / 8) + x % 8;
  }

  /** The j-th pixel of an unpacked byte is bit 7 - j. */
  lemma {:induction false} UnpackBitsPixel(b: Byte, k: nat, j: nat, red: Byte, green: Byte, blue: Byte)
    requires j < k <= 8
    ensures UnpackBits(b, k, red, green, blue)[4 * j .. 4 * j + 4] == Texel(BitSet(b, 7 - j), red, green, blue)
    decreases k
  {
    var prefix := UnpackBits(b, k - 1, red, green, blue);
    assert UnpackBits(b, k, red, green, blue) == prefix + Texel(BitSet(b, 8 - k), red, green, blue);
    if j < k - 1 {
      UnpackBitsPixel(b, k - 1, j, red, green, blue);
    }
  }

  /** Byte i of a run unpacks to the 32 output bytes starting at 32 * i. */
  lemma {:induction false} UnpackBytesBlock(s: seq<Byte>, i: nat, red: Byte, green: Byte, blue: Byte)
    requires i < |s|
    ensures UnpackBytes(s, red, green, blue)[32 * i .. 32 * i + 32] == UnpackByte(s[i], red, green, blue)
    decreases |s|
  {
    var init := s[..|s| - 1];
    assert UnpackBytes(s, red, green, blue) == UnpackBytes(init, red, green, blue) + UnpackByte(s[|s| - 1], red, green, blue);
    if i < |s| - 1 {
      UnpackBytesBlock(init, i, red, green, blue);
      assert init[i] == s[i];
    }
  }

  /** Pixel j of byte i of a run is bit 7 - j of that byte. */
  lemma UnpackBytesPixel(s: seq<Byte>, i: nat, j: nat, red: Byte, green: Byte, blue: Byte)
    requires i < |s| && j < 8
    ensures 32 * i + 4 * j + 4 <= |UnpackBytes(s, red, green, blue)|
    ensures UnpackBytes(s, red, green, blue)[32 * i + 4 * j .. 32 * i + 4 * j + 4]
         == Texel(BitSet(s[i], 7 - j), red, green, blue)
  {
    var image := UnpackBytes(s, red, green, blue);
    var block := image[32 * i .. 32 * i + 32];
    var lo := 32 * i + 4 * j;
    UnpackBytesBlock(s, i, red, green, blue);
    UnpackBitsPixel(s[i], 8, j, red, green, blue);
    var pixel, texel := image[lo .. lo + 4], block[4 * j .. 4 * j + 4];
    assert forall k :: 0 <= k < 4 ==> pixel[k] == texel[k];
    assert pixel == texel;
  }

  /** The image has four bytes for each of the width * height pixels. */
  lemma DecodedSize(bits: seq<Byte>, width: int, height: int, red: Byte, green: Byte, blue: Byte)
    requires Wellformed(bits, width, height)
    ensures |Decoded(bits, width, height, red, green, blue)| == width * height * 4
  {
    var w8 := width / 8;
    assert width == 8 * w8;
    assert width * height * 4 == 32 * (w8 * height);
  }

  /**
   * Pixel (y, x) of the image is opaque red, green, blue when source pixel
   * (y, x) is set and transparent black when it is clear.
   */
  lemma DecodedPixel(bits: seq<Byte>, width: int, height: int, red: Byte, green: Byte, blue: Byte, y: int, x: int)
    requires Wellformed(bits, width, height)
    requires 0 <= y < height && 0 <= x < width
    ensures (y * width + x) * 4 + 4 <= |Decoded(bits, width, height, red, green, blue)|
    ensures PixelAt(Decoded(bits, width, height, red, green, blue), width, y, x)
         == Texel(PixelSet(bits, width, height, y, x), red, green, blue)
  {
    var s := bits[..(width / 8) * height];
    var i, j := y * (width / 8) + x / 8, x % 8;
    var q := (y * width + x) * 4;
    assert q == 32 * i + 4 * j && 0 <= i < |s| by { PixelIndexInRange(width, height, y, x); }
    UnpackBytesPixel(s, i, j, red, green, blue);
    assert PixelSet(bits, width, height, y, x) == BitSet(s[i], 7 - j) by {
      PixelSetBit(bits, width, height, y, x);
      assert s[i] == bits[i];
    }
  }

  /** Source pixel (y, x) is bit 7 - x%8 of byte y*(width/8) + x/8. */
  lemma PixelSetBit(bits: seq<Byte>, width: int, height: int, y: int, x: int)
    requires Wellformed(bits, width, height)
    requires 0 <= y < height && 0 <= x < width
    ensures 0 <= y * (width / 8) + x / 8 < |bits|
    ensures PixelSet(bits, width, height, y, x) == BitSet(bits[y * (width / 8) + x / 8], 7 - x % 8)
  {
    PixelIndexInRange(width, height, y, x);
  }

  /** Pixel (y, x) of the image is the texel source pixel (y, x) calls for. */
  predicate PixelShown(image: seq<Byte>, bits: seq<Byte>, width: int, height: int, red: Byte, green: Byte, blue: Byte,
                       y: int, x: int)
    requires Wellformed(bits, width, height)
    requires 0 <= y < height && 0 <= x < width
  {
    && (y * width + x) * 4 + 4 <= |image|
    && PixelAt(image, width, y, x) == Texel(PixelSet(bits, width, height, y, x), red, green, blue)
  }

  /**
   * An RGBA image of width * height pixels in which pixel (y, x) is opaque
   * (red, green, blue) exactly when source pixel (y, x) is set, and
   * transparent black otherwise.
   */
  predicate Shows(image: seq<Byte>, bits: seq<Byte>, width: int, height: int, red: Byte, green: Byte, blue: Byte)
    requires Wellformed(bits, width, height)
  {
    && |image| == width * height * 4
    && forall y, x :: 0 <= y < height && 0 <= x < width ==>
         PixelShown(image, bits, width, height, red, green, blue, y, x)
  }

  /** The decoded image shows the bitmap, pixel for pixel. */
  lemma DecodedShowsBitmap(bits: seq<Byte>, width: int, height: int, red: Byte, green: Byte, blue: Byte)
    requires Wellformed(bits, width, height)
    ensures Shows(Decoded(bits, width, height, red, green, blue), bits, width, height, red, green, blue)
  {
    var image := Decoded(bits, width, height, red, green, blue);
    DecodedSize(bits, width, height, red, green, blue);
    forall y, x | 0 <= y < height && 0 <= x < width
      ensures PixelShown(image, bits, width, height, red, green, blue, y, x)
    {
      DecodedPixel(bits, width, height, red, green, blue, y, x);
    }
  }

  /** Every alpha byte of the image is 0 or 255. */
  predicate AlphaBinary(image: seq<Byte>)
  {
    forall i :: 0 <= i < |image| && i % 4 == 3 ==> image[i] == 0 || image[i] == 255
  }

  lemma AlphaBinaryConcat(a: seq<Byte>, b: seq<Byte>)
    requires |a| % 4 == 0 && AlphaBinary(a) && AlphaBinary(b)
    ensures AlphaBinary(a + b)
  {
    forall i | 0 <= i < |a + b| && i % 4 == 3
      ensures (a + b)[i] == 0 || (a + b)[i] == 255
    {
      if i >= |a| {
        assert (i - |a|) % 4 == 3;
      }
    }
  }

  lemma {:induction false} UnpackBitsAlpha(b: Byte, k: nat, red: Byte, green: Byte, blue: Byte)
    requires k <= 8
    ensures AlphaBinary(UnpackBits(b, k, red, green, blue))
    decreases k
  {
    if k > 0 {
      UnpackBitsAlpha(b, k - 1, red, green, blue);
      AlphaBinaryConcat(UnpackBits(b, k - 1, red, green, blue), Texel(BitSet(b, 8 - k), red, green, blue));
    }
  }

  lemma {:induction false} UnpackBytesAlpha(s: seq<Byte>, red: Byte, green: Byte, blue: Byte)
    ensures AlphaBinary(UnpackBytes(s, red, green, blue))
    decreases |s|
  {
    if |s| > 0 {
      UnpackBytesAlpha(s[..|s| - 1], red, green, blue);
      UnpackBitsAlpha(s[|s| - 1], 8, red, green, blue);
      AlphaBinaryConcat(UnpackBytes(s[..|s| - 1], red, green, blue), UnpackByte(s[|s| - 1], red, green, blue));
    }
  }

  /** Every pixel of the image is either fully opaque or fully transparent. */
  lemma DecodedAlphaBinary(bits: seq<Byte>, width: int, height: int, red: Byte, green: Byte, blue: Byte)
    requires Wellformed(bits, width, height)
    ensures AlphaBinary(Decoded(bits, width, height, red, green, blue))
  {
    UnpackBytesAlpha(bits[..(width / 8) * height], red, green, blue);
  }

  /** The image depends only on the first (width/8)*height bytes of the bitmap. */
  lemma DecodedReadsPrefix(bits: seq<Byte>, bits': seq<Byte>, width: int, height: int, red: Byte, green: Byte, blue: Byte)
    requires Wellformed(bits, width, height) && Wellformed(bits', width, height)
    requires bits[..(width / 8) * height] == bits'[..(width / 8) * height]
    ensures Decoded(bits, width, height, red, green, blue) == Decoded(bits', width, height, red, green, blue)
  {
  }

  /** Four bytes stored through `*ptr++`, leaving everything before them alone. */
  method PutPixel(buf: array<Byte>, q: nat, c0: Byte, c1: Byte, c2: Byte, c3: Byte)
    modifies buf
    requires q + 4 <= buf.Length
    ensures buf[..q + 4] == old(buf[..q]) + [c0, c1, c2, c3]
  {
    buf[q] := c0;
    buf[q + 1] := c1;
    buf[q + 2] := c2;
    buf[q + 3] := c3;
  }

  /** The two branches of `if (next8 & mask)`: the colour with alpha 255 when lit, four zeros otherwise. */
  method PutTexel(buf: array<Byte>, q: nat, lit: bool, red: Byte, green: Byte, blue: Byte)
    modifies buf
    requires q + 4 <= buf.Length
    ensures buf[..q + 4] == old(buf[..q]) + Texel(lit, red, green, blue)
  {
    if lit {
      PutPixel(buf, q, red, green, blue, 255);
    } else {
      PutPixel(buf, q, 0, 0, 0, 0);
    }
  }

  /** Appending the texel of bit 7 - k extends the first k pixels of a byte to the first k + 1. */
  lemma AppendTexel(done: seq<Byte>, b: Byte, k: nat, red: Byte, green: Byte, blue: Byte)
    requires k < 8
    ensures done + UnpackBits(b, k, red, green, blue) + Texel(BitSet(b, 7 - k), red, green, blue)
         == done + UnpackBits(b, k + 1, red, green, blue)
  {
  }

  /** The decoder's test `next8 & mask` for the mask 2^j: true exactly when bit j is set. */
  method TestMask(next8: Byte, mask: int, ghost j: nat) returns (hit: bool)
    requires j < 8 && mask == Pow2(j)
    ensures hit <==> BitSet(next8, j)
  {
    MaskSelectsBit(next8, j);
    hit := MaskHits(next8, mask);
  }

  /** `mask >>= 1` walks the one-bit masks down to zero. */
  lemma MaskHalves(k: nat)
    requires k < 8
    ensures Pow2(7 - k) / 2 == if k == 7 then 0 else Pow2(6 - k)
  {
    if k < 7 {
      assert Pow2(7 - k) == 2 * Pow2(6 - k);
    }
  }

  /**
   * The innermost loop of BuildMonochromeBitmap: one source byte written out
   * as eight pixels at `p`, the mask walking 128, 64, ..., 1.
   */
  method UnpackByteInto(buf: array<Byte>, p: nat, next8: Byte, red: Byte, green: Byte, blue: Byte)
    modifies buf
    requires p + 32 <= buf.Length
    ensures buf[..p + 32] == old(buf[..p]) + UnpackByte(next8, red, green, blue)
  {
    ghost var done := buf[..p];
    var q := p;
    var mask := 128;
    ghost var k := 0;
    assert mask == Pow2(7) by { PowersOfTwo(); }
    while mask > 0
      invariant 0 <= k <= 8
      invariant mask == if k == 8 then 0 else Pow2(7 - k)
      invariant q == p + 4 * k
      invariant buf[..q] == done + UnpackBits(next8, k, red, green, blue)
      decreases mask
    {
      var hit := TestMask(next8, mask, 7 - k);
      PutTexel(buf, q, hit, red, green, blue);
      AppendTexel(done, next8, k, red, green, blue);
      MaskHalves(k);
      q := q + 4;
      mask := mask / 2;
      k := k + 1;
    }
  }

  /** Row y + 1 of the source starts w8 bytes after row y, and no row starts past the end. */
  lemma RowAdvance(y: int, w8: int, height: int)
    requires 0 <= y < height && 0 <= w8
    ensures (y + 1) * w8 == y * w8 + w8 <= w8 * height
  {
  }

  /** The buffer `malloc(width * height * 4)` holds 32 bytes for every source byte of the image. */
  lemma AllocationSize(width: int, height: int)
    requires 0 <= width && width % 8 == 0
    ensures width * height * 4 == 32 * ((width / 8) * height)
    ensures height * (width / 8) == (width / 8) * height
  {
    var w8 := width / 8;
    assert width == 8 * w8;
  }

  /** Unpacking one more byte of the source appends its eight pixels. */
  lemma UnpackBytesSnoc(bits: seq<Byte>, n: nat, red: Byte, green: Byte, blue: Byte)
    requires n < |bits|
    ensures UnpackBytes(bits[..n + 1], red, green, blue)
         == UnpackBytes(bits[..n], red, green, blue) + UnpackByte(bits[n], red, green, blue)
  {
    assert bits[..n + 1][..n] == bits[..n];
  }

  /**
   * The `x` loop of BuildMonochromeBitmap: the `width / 8` bytes of one source
   * row, each written out as eight pixels, appended after what the earlier
   * rows wrote.
   */
  method UnpackRowInto(buf: array<Byte>, p0: nat, bits: seq<Byte>, src0: nat, w8: nat,
                       red: Byte, green: Byte, blue: Byte)
    returns (src: nat, p: nat)
    modifies buf
    requires src0 + w8 <= |bits|
    requires p0 == 32 * src0 && 32 * (src0 + w8) <= buf.Length
    requires buf[..p0] == UnpackBytes(bits[..src0], red, green, blue)
    ensures src == src0 + w8 && p == 32 * src
    ensures buf[..p] == UnpackBytes(bits[..src], red, green, blue)
  {
    src, p := src0, p0;
    var x := 0;
    while x < w8
      invariant 0 <= x <= w8
      invariant src == src0 + x
      invariant p == 32 * src
      invariant buf[..p] == UnpackBytes(bits[..src], red, green, blue)
    {
      var next8 := bits[src];
      UnpackBytesSnoc(bits, src, red, green, blue);
      src := src + 1;
      UnpackByteInto(buf, p, next8, red, green, blue);
      p := p + 32;
      x := x + 1;
    }
  }

  /**
   * The `y` loop of BuildMonochromeBitmap: `height` rows of `w8` bytes each
   * fill the whole buffer; the result is how many source bytes were read.
   */
  method UnpackRows(buf: array<Byte>, bits: seq<Byte>, w8: nat, height: nat, red: Byte, green: Byte, blue: Byte)
    returns (src: nat)
    modifies buf
    requires w8 * height <= |bits| && buf.Length == 32 * (w8 * height)
    ensures src == w8 * height
    ensures buf[..] == UnpackBytes(bits[..src], red, green, blue)
  {
    ghost var total := w8 * height;
    src := 0;
    var p: nat := 0;
    var y := 0;
    while y < height
      invariant 0 <= y <= height
      invariant src == y * w8 && src <= total
      invariant p == 32 * src
      invariant buf[..p] == UnpackBytes(bits[..src], red, green, blue)
    {
      RowAdvance(y, w8, height);
      src, p := UnpackRowInto(buf, p, bits, src, w8, red, green, blue);
      y := y + 1;
    }
    assert src == total by { AllocationSize(8 * w8, height); }
    assert buf[..] == buf[..p];
  }

  /**
   * BuildMonochromeBitmap. `mallocSucceeds` stands for the outcome of the
   * allocation; `consumed` is how far the `bits` pointer advanced.
   */
  method BuildMonochromeBitmap(bits: seq<Byte>, width: int, height: int, red: Byte, green: Byte, blue: Byte,
                               mallocSucceeds: bool)
    returns (image: Option<seq<Byte>>, consumed: nat)
    requires Wellformed(bits, width, height)
    ensures image.None? <==> !mallocSucceeds
    ensures image.None? ==> consumed == 0
    ensures image.Some? ==> consumed == (width / 8) * height
    ensures image.Some? ==> image.value == Decoded(bits, width, height, red, green, blue)
    ensures image.Some? ==> Shows(image.value, bits, width, height, red, green, blue)
  {
    if !mallocSucceeds {
      return None, 0;
    }
    var w8 := width / 8;
    var size := width * height * 4;
    AllocationSize(width, height);
    var buf := new Byte[size];
    consumed := UnpackRows(buf, bits, w8, height, red, green, blue);
    image := Some(buf[..]);
    DecodedShowsBitmap(bits, width, height, red, green, blue);
  }
}

=== FILE: common.dfy ===
/**
 * Value types shared by every demo: the C integer types the tables use and
 * the Option that stands for a nullable pointer.
 */
module Common {

  /** GLubyte: an unsigned 8-bit value. */
  type Byte = x: int | 0 <= x < 0x100

  /** GLushort: an unsigned 16-bit value, the element type of every index list. */
  type Ushort = x: int | 0 <= x < 0x1_0000

  /** A pointer that may be null: None is NULL. */
  datatype Option<+T> = None | Some(value: T)

  /** 2 to the power n. */
  function Pow2(n: nat): (r: nat)
    ensures r > 0
  {
    if n == 0 then 1 else 2 * Pow2(n - 1)
  }

  /** The powers of two a byte's bit masks take, 2^0 = 1 up to 2^7 = 128. */
  lemma PowersOfTwo()
    ensures Pow2(0) == 1 && Pow2(1) == 2 && Pow2(2) == 4 && Pow2(3) == 8
    ensures Pow2(4) == 16 && Pow2(5) == 32 && Pow2(6) == 64 && Pow2(7) == 128
  {
  }
}

=== FILE: deindexing.dfy ===
/**
 * Demo 5 and Demo 6 describe the same two shapes, once as flat vertex lists
 * drawn in order and once as corner tables drawn through index lists. These
 * lemmas show that the indexed tables expand to exactly the flat ones, so the
 * two demos send the pipeline the same vertices.
 */
module Deindexing {
  import opened Common
  import opened Mesh
  import opened Transform
  import Demo5
  import Demo6

  /** Demo 6's square, fetched through its index list, is Demo 5's flat square: positions and colours. */
  lemma SquareRoundTrip(previous: ShapeInfo)
    ensures Draw(Group(Demo6.SquareCoords, 2), Demo6.SetupSquare(previous))
         == Group(Demo5.SquareCoords, 2)
    ensures Draw(Group(Demo6.SquareColors, 3), Demo6.SetupSquare(previous))
         == Group(Demo5.SquareColors, 3)
  {
    SquarePositionsRoundTrip(previous);
    SquareColorsRoundTrip(previous);
  }

  lemma SquarePositionsRoundTrip(previous: ShapeInfo)
    ensures Draw(Group(Demo6.SquareCoords, 2), Demo6.SetupSquare(previous))
         == Group(Demo5.SquareCoords, 2)
  {
    var a, b, c, d := [-0.5, 0.5], [0.5, 0.5], [0.5, -0.5], [-0.5, -0.5];
    CornerPositions(a, b, c, d);
    FlatPositions(a, b, c, d);
    SquareCorners([a, b, c, d], previous);
  }

  lemma CornerPositions(a: seq<real>, b: seq<real>, c: seq<real>, d: seq<real>)
    requires a == [-0.5, 0.5] && b == [0.5, 0.5] && c == [0.5, -0.5] && d == [-0.5, -0.5]
    ensures Group(Demo6.SquareCoords, 2) == [a, b, c, d]
  {
    FlattenFour(a, b, c, d);
    assert Demo6.SquareCoords == a + b + c + d;
    GroupsAs(Demo6.SquareCoords, 2, [a, b, c, d]);
  }

  lemma FlatPositions(a: seq<real>, b: seq<real>, c: seq<real>, d: seq<real>)
    requires a == [-0.5, 0.5] && b == [0.5, 0.5] && c == [0.5, -0.5] && d == [-0.5, -0.5]
    ensures Group(Demo5.SquareCoords, 2) == [a, b, c, c, d, a]
  {
    FlattenSix(a, b, c, c, d, a);
    assert Demo5.SquareCoords == a + b + c + c + d + a;
    GroupsAs(Demo5.SquareCoords, 2, [a, b, c, c, d, a]);
  }

  lemma SquareColorsRoundTrip(previous: ShapeInfo)
    ensures Draw(Group(Demo6.SquareColors, 3), Demo6.SetupSquare(previous))
         == Group(Demo5.SquareColors, 3)
  {
    var r, g, b, w := [1.0, 0.0, 0.0], [0.0, 1.0, 0.0], [0.0, 0.0, 1.0], [1.0, 1.0, 1.0];
    CornerColors(r, g, b, w);
    FlatColors(r, g, b, w);
    SquareCorners([r, g, b, w], previous);
  }

  /** Drawing any four corners through the square's index list repeats corners 2 and 0. */
  lemma SquareCorners<V>(corners: seq<V>, previous: ShapeInfo)
    requires |corners| == 4
    ensures Drawable(Demo6.SetupSquare(previous), 4)
    ensures Draw(corners, Demo6.SetupSquare(previous))
         == [corners[0], corners[1], corners[2], corners[2], corners[3], corners[0]]
  {
    var out := Draw(corners, Demo6.SetupSquare(previous));
    assert Demo6.SquareIndices[..6] == [0, 1, 2, 2, 3, 0];
    assert |out| == 6;
  }

  lemma CornerColors(r: seq<real>, g: seq<real>, b: seq<real>, w: seq<real>)
    requires r == [1.0, 0.0, 0.0] && g == [0.0, 1.0, 0.0] && b == [0.0, 0.0, 1.0] && w == [1.0, 1.0, 1.0]
    ensures Group(Demo6.SquareColors, 3) == [r, g, b, w]
  {
    FlattenFour(r, g, b, w);
    assert Demo6.SquareColors == r + g + b + w;
    GroupsAs(Demo6.SquareColors, 3, [r, g, b, w]);
  }

  lemma FlatColors(r: seq<real>, g: seq<real>, b: seq<real>, w: seq<real>)
    requires r == [1.0, 0.0, 0.0] && g == [0.0, 1.0, 0.0] && b == [0.0, 0.0, 1.0] && w == [1.0, 1.0, 1.0]
    ensures Group(Demo5.SquareColors, 3) == [r, g, b, b, w, r]
  {
    FlattenSix(r, g, b, b, w, r);
    assert Demo5.SquareColors == r + g + b + b + w + r;
    GroupsAs(Demo5.SquareColors, 3, [r, g, b, b, w, r]);
  }

  lemma FlattenFour(a: seq<real>, b: seq<real>, c: seq<real>, d: seq<real>)
    ensures Flatten([a, b, c, d]) == a + b + c + d
  {
    assert [a, b, c, d][1..] == [b, c, d];
    assert [b, c, d][1..] == [c, d];
    assert [c, d][1..] == [d];
    assert [d][1..] == [];
    assert Flatten([d]) == d + [] == d;
    assert Flatten([c, d]) == c + d;
    assert Flatten([b, c, d]) == b + (c + d);
    assert Flatten([a, b, c, d]) == a + (b + (c + d));
  }

  lemma FlattenSix(a: seq<real>, b: seq<real>, c: seq<real>, d: seq<real>, e: seq<real>, f: seq<real>)
    ensures Flatten([a, b, c, d, e, f]) == a + b + c + d + e + f
  {
    assert [a, b, c, d, e, f][1..] == [b, c, d, e, f];
    assert [b, c, d, e, f][1..] == [c, d, e, f];
    FlattenFour(c, d, e, f);
  }

  /** A packed array laid out from the given vertices groups back into them. */
  lemma GroupsAs(flat: seq<real>, size: nat, vs: seq<seq<real>>)
    requires 0 < size && Uniform(vs, size) && flat == Flatten(vs)
    ensures Group(flat, size) == vs
  {
    GroupFlatten(vs, size);
  }

  /** Demo 6's pentagon, fetched through its index list, is Demo 5's nine-vertex pentagonData. */
  lemma PentagonRoundTrip(previous: ShapeInfo)
    ensures Draw(Demo6.PentagonData, Demo6.SetupPentagon(previous)) == Demo5.PentagonData
  {
  }

  /** Demo 6's pentagon positions, fetched through its index list, are Demo 5's nine positions. */
  lemma PentagonPositionsRoundTrip(previous: ShapeInfo)
    ensures Draw(Positions2(Demo6.PentagonData), Demo6.SetupPentagon(previous))
         == Positions2(Demo5.PentagonData)
  {
    var info := Demo6.SetupPentagon(previous);
    PentagonRoundTrip(previous);
    PositionsCommuteWithExpand(Demo6.PentagonData, Fetched(info, |Demo6.PentagonData|));
  }

  /**
   * De-indexing drawTrianglesAt: for any position table and any index list
   * drawable against it, Demo 6's indexed draw emits exactly what Demo 5's
   * sequential draw emits from the table the index list expands to.
   */
  lemma IndexedDrawIsFlatDraw(x: real, y: real, scale: real, info: ShapeInfo, positions: seq<seq<real>>)
    requires info.indices.Some? && Drawable(info, |positions|)
    requires forall k :: 0 <= k < |positions| ==> |positions[k]| == 2
    ensures forall k :: 0 <= k < info.count ==> |Draw(positions, info)[k]| == 2
    ensures Demo6.DrawTrianglesAt(x, y, scale, info, positions)
         == Demo5.DrawTrianglesAt(x, y, scale, info.count, Draw(positions, info))
  {
  }

  /** Wherever the square is placed, both demos emit the same transformed positions. */
  lemma SquareDrawsAlike(x: real, y: real, scale: real, previous: ShapeInfo)
    ensures Demo6.DrawTrianglesAt(x, y, scale, Demo6.SetupSquare(previous), Group(Demo6.SquareCoords, 2))
         == Demo5.DrawTrianglesAt(x, y, scale, Demo5.SetupSquare(), Group(Demo5.SquareCoords, 2))
  {
    SquareRoundTrip(previous);
    IndexedDrawIsFlatDraw(x, y, scale, Demo6.SetupSquare(previous), Group(Demo6.SquareCoords, 2));
  }

  /** Wherever the pentagon is placed, both demos emit the same transformed positions. */
  lemma PentagonDrawsAlike(x: real, y: real, scale: real, previous: ShapeInfo)
    ensures Demo6.DrawTrianglesAt(x, y, scale, Demo6.SetupPentagon(previous), Positions2(Demo6.PentagonData))
         == Demo5.DrawTrianglesAt(x, y, scale, Demo5.SetupPentagon(), Positions2(Demo5.PentagonData))
  {
    PentagonPositionsRoundTrip(previous);
    IndexedDrawIsFlatDraw(x, y, scale, Demo6.SetupPentagon(previous), Positions2(Demo6.PentagonData));
  }
}

=== FILE: demo11.dfy ===
/**
 * Demo 11: a pyramid drawn three times per redisplay, orbiting and receding
 * as onDisplay's saturating counter advances. Shapes with an index list go
 * through glDrawElements, shapes without one through glDrawArrays.
 */
module Demo11 {
  import opened Common
  import opened Mesh
  import opened Projection
  import Animation

  /** CENTER_Z: the distance from the camera. */
  const CenterZ: real := 6.0

  /** DEPTH_OF_FIELD. */
  const DepthOfField: real := 5.0

  /** The frustum main passes to glFrustum. */
  const ViewFrustum: Frustum := FromDepthOfField(Ratio, CenterZ, DepthOfField)

  /** The near plane is 3.5 and the far plane 8.5: a valid perspective projection. */
  lemma ViewFrustumPlanes()
    ensures ViewFrustum.near == 3.5 && ViewFrustum.far == 8.5
    ensures Valid(ViewFrustum)
  {
    FromDepthOfFieldValid(Ratio, CenterZ, DepthOfField);
  }

  /** setupPyramid's pyramidData: four triangles, every corner repeated per face. */
  const PyramidData: seq<ColoredPoint3> := [
    // Bottom
    ColoredPoint3(0.0, 0.0, 0.5, 255, 0, 0),
    ColoredPoint3(0.433, 0.0, -0.25, 255, 0, 0),
    ColoredPoint3(-0.433, 0.0, -0.25, 255, 0, 0),
    // Side 1
    ColoredPoint3(-0.433, 0.0, -0.25, 0, 0, 255),
    ColoredPoint3(0.433, 0.0, -0.25, 0, 0, 255),
    ColoredPoint3(0.0, 0.75, 0.0, 0, 0, 255),
    // Side 2
    ColoredPoint3(-0.433, 0.0, -0.25, 255, 255, 0),
    ColoredPoint3(0.0, 0.0, 0.5, 255, 255, 0),
    ColoredPoint3(0.0, 0.75, 0.0, 255, 255, 0),
    // Side 3
    ColoredPoint3(0.0, 0.0, 0.5, 0, 255, 0),
    ColoredPoint3(0.433, 0.0, -0.25, 0, 255, 0),
    ColoredPoint3(0.0, 0.75, 0.0, 0, 255, 0)
  ]

  /** setupPyramid(pInfo): no index list, and a count covering the whole table. */
  function SetupPyramid(previous: ShapeInfo): (info: ShapeInfo)
    ensures info.indices.None?
    ensures info.count == |PyramidData|
    ensures Drawable(info, |PyramidData|) && TriangleList(info)
  {
    ShapeInfo(None, 12)
  }

  /** The tip of the pyramid. */
  predicate IsApex(v: ColoredPoint3)
  {
    v.x == 0.0 && v.y == 0.75 && v.z == 0.0
  }

  /** Two table entries sit at the same point, whatever their colours. */
  predicate SamePosition(v: ColoredPoint3, w: ColoredPoint3)
  {
    v.x == w.x && v.y == w.y && v.z == w.z
  }

  /** Side s (1, 2 or 3) has its first two corners on base corners b and c, two different ones. */
  predicate StandsOnEdge(s: nat, b: nat, c: nat)
    requires 1 <= s < 4 && b < 3 && c < 3
  {
    b != c && SamePosition(PyramidData[3 * s], PyramidData[b])
    && SamePosition(PyramidData[3 * s + 1], PyramidData[c])
  }

  /** Side s stands on some edge of the base triangle. */
  predicate SideOnBase(s: nat)
    requires 1 <= s < 4
  {
    exists b: nat, c: nat :: b < 3 && c < 3 && StandsOnEdge(s, b, c)
  }

  /**
   * The first triangle is the base, three distinct corners in the plane
   * y = 0; each later triangle is a side whose first two corners are the two
   * ends of a base edge and whose third corner is the apex. The three sides
   * stand on the three different edges of the base.
   */
  lemma PyramidFaces()
    ensures |PyramidData| == 12
    ensures forall k :: 0 <= k < 12 && k % 3 != 2 ==> PyramidData[k].y == 0.0
    ensures PyramidData[2].y == 0.0
    ensures forall b, c :: 0 <= b < c < 3 ==> !SamePosition(PyramidData[b], PyramidData[c])
    ensures forall s :: 1 <= s < 4 ==> SideOnBase(s)
    ensures StandsOnEdge(1, 2, 1) && StandsOnEdge(2, 2, 0) && StandsOnEdge(3, 0, 1)
    ensures forall k :: 3 <= k < 12 && k % 3 == 2 ==> IsApex(PyramidData[k])
  {
    forall s | 1 <= s < 4
      ensures SideOnBase(s)
    {
      if s == 1 {
        assert StandsOnEdge(1, 2, 1);
      } else if s == 2 {
        assert StandsOnEdge(2, 2, 0);
      } else {
        assert StandsOnEdge(3, 0, 1);
      }
    }
  }

  /** The pyramid drawn without indices emits its table in order, exactly as through the index list 0..11. */
  lemma PyramidDrawsInOrder(previous: ShapeInfo)
    ensures Draw(PyramidData, SetupPyramid(previous)) == PyramidData
    ensures Draw(PyramidData, SetupPyramid(previous)) == Draw(PyramidData, ShapeInfo(Some(Iota(12)), 12))
  {
    IdentityIndicesDrawSequentially(PyramidData, 12);
  }

  /**
   * One drawTrianglesAt call. The position is (cos a, sin a) for the angle
   * a = angle + phase * 2*pi/3; the cosine, sine and rotation are not modelled.
   */
  datatype Placement = Placement(angle: real, phase: nat, z: real, rotyDegrees: real, scale: real)

  /** onDisplay: bump the counter, then place the three pyramids from its new value. */
  function OnDisplay(i: int): (r: (int, seq<Placement>))
    ensures r.0 == Animation.Tick(i)
    ensures |r.1| == 3
    ensures forall k :: 0 <= k < 3 ==> r.1[k].z == Animation.Depth(r.0) && r.1[k].angle == Animation.Angle(r.0)
  {
    var i' := Animation.Tick(i);
    var z := Animation.Depth(i');
    var angle := Animation.Angle(i');
    (i', [ Placement(angle, 0, z, i' as real * 3.0, 2.0),
           Placement(angle, 1, z, i' as real, 1.5),
           Placement(angle, 2, z, i' as real * 10.0, 1.2) ])
  }

  /** The placements drawn by the n-th redisplay (n counts from 1). */
  function SceneAt(n: nat): seq<Placement>
    requires n >= 1
  {
    OnDisplay(Animation.CounterAfter(n - 1)).1
  }

  /**
   * Once the counter has saturated, every later redisplay draws exactly the
   * same placements: depth, orbit angle and spin all stop together.
   */
  lemma SceneFreezes(n: nat)
    requires n >= Animation.MaxFrame
    ensures SceneAt(n) == SceneAt(Animation.MaxFrame)
  {
    Animation.CounterAfterIsMin(n - 1);
    Animation.CounterAfterIsMin(Animation.MaxFrame - 1);
  }

  /**
   * glTranslated(x, y, z - CENTER_Z) puts each pyramid's origin at eye depth
   * z - 6, which stays between the far and near planes on every redisplay.
   */
  lemma PyramidOriginInDepthRange(n: nat)
    requires n >= 1
    ensures forall k :: 0 <= k < |SceneAt(n)| ==> InDepthRange(ViewFrustum, SceneAt(n)[k].z - CenterZ)
  {
    Animation.CounterAfterIsMin(n - 1);
    Animation.CounterInRange(n);
    ViewFrustumPlanes();
  }
}

=== FILE: demo16.dfy ===
/**
 * Demo 16: a textured pyramid whose texture is a 16 x 16 smiley face, built
 * on the CPU from a one-bit-per-pixel bitmap by BuildMonochromeBitmap and
 * uploaded as RGBA.
 */
module Demo16 {
  import opened Common
  import opened Mesh
  import opened Projection
  import opened Bitmap
  import Animation

  /** CENTER_Z: the distance from the camera. */
  const CenterZ: real := 6.0

  /** DEPTH_OF_FIELD. */
  const DepthOfField: real := 5.0

  /** The frustum main passes to setupFrustum. */
  const ViewFrustum: Frustum := FromDepthOfField(Ratio, CenterZ, DepthOfField)

  /** The near plane is 3.5 and the far plane 8.5: a valid perspective projection. */
  lemma ViewFrustumPlanes()
    ensures ViewFrustum.near == 3.5 && ViewFrustum.far == 8.5
    ensures Valid(ViewFrustum)
  {
    FromDepthOfFieldValid(Ratio, CenterZ, DepthOfField);
  }

  /** setupPyramid's pyramidData: position, colour and texture coordinate per corner. */
  const PyramidData: seq<TexturedPoint3> := [
    // Bottom
    TexturedPoint3(0.0, 0.0, 0.5, 255, 0, 0, 0.0, 0.0),
    TexturedPoint3(0.433, 0.0, -0.25, 255, 0, 0, 0.0, 1.0),
    TexturedPoint3(-0.433, 0.0, -0.25, 255, 0, 0, 1.0, 1.0),
    // Side 1
    TexturedPoint3(-0.433, 0.0, -0.25, 0, 0, 255, 0.0, 0.0),
    TexturedPoint3(0.433, 0.0, -0.25, 0, 255, 255, 1.0, 0.0),
    TexturedPoint3(0.0, 0.75, 0.0, 255, 0, 255, 1.0, 1.0),
    // Side 2
    TexturedPoint3(-0.433, 0.0, -0.25, 255, 255, 0, 0.0, 0.0),
    TexturedPoint3(0.0, 0.0, 0.5, 255, 255, 0, 0.0, 1.0),
    TexturedPoint3(0.0, 0.75, 0.0, 255, 255, 0, 1.0, 1.0),
    // Side 3
    TexturedPoint3(0.0, 0.0, 0.5, 0, 255, 0, 4.0, 4.0),
    TexturedPoint3(0.0, 0.75, 0.0, 0, 255, 0, 2.0, 0.0),
    TexturedPoint3(0.433, 0.0, -0.25, 0, 255, 0, 0.0, 4.0)
  ]

  /** setupPyramid(pInfo): drawn with glDrawArrays, so no index list, and all twelve corners. */
  function SetupPyramid(previous: ShapeInfo): (info: ShapeInfo)
    ensures info.indices.None?
    ensures info.count == |PyramidData|
    ensures Drawable(info, |PyramidData|) && TriangleList(info)
  {
    ShapeInfo(None, 12)
  }

  /** The glDrawArrays call emits the whole table, in order. */
  lemma PyramidDrawsInOrder(previous: ShapeInfo)
    ensures Draw(PyramidData, SetupPyramid(previous)) == PyramidData
  {
  }

  /**
   * Texture coordinates outside [0, 1] appear only on the third side, whose
   * corners reach up to 4: with GL_REPEAT wrapping that side shows the smiley
   * tiled.
   */
  lemma TextureCoordinatesRepeatOnlyOnSideThree()
    ensures forall k :: 0 <= k < 9 ==> 0.0 <= PyramidData[k].texU <= 1.0 && 0.0 <= PyramidData[k].texV <= 1.0
    ensures exists k :: 9 <= k < 12 && PyramidData[k].texU > 1.0
  {
    assert PyramidData[9].texU == 4.0;
  }

  /** One drawTrianglesAt call; the position is (cos angle, sin angle), left unevaluated. */
  datatype Placement = Placement(angle: real, z: real, rotyDegrees: real, scale: real)

  /** onDisplay: bump the counter, then draw the single pyramid from its new value. */
  function OnDisplay(i: int): (r: (int, Placement))
    ensures r.0 == Animation.Tick(i)
    ensures r.1.z == Animation.Depth(r.0) && r.1.angle == Animation.Angle(r.0)
    ensures r.1.scale == 2.0
  {
    var i' := Animation.Tick(i);
    (i', Placement(Animation.Angle(i'), Animation.Depth(i'), i' as real * 3.0, 2.0))
  }

  /** The placement drawn by the n-th redisplay (n counts from 1). */
  function SceneAt(n: nat): Placement
    requires n >= 1
  {
    OnDisplay(Animation.CounterAfter(n - 1)).1
  }

  /** From the 400th redisplay on, the pyramid stays where it is. */
  lemma SceneFreezes(n: nat)
    requires n >= Animation.MaxFrame
    ensures SceneAt(n) == SceneAt(Animation.MaxFrame)
  {
    Animation.CounterAfterIsMin(n - 1);
    Animation.CounterAfterIsMin(Animation.MaxFrame - 1);
  }

  /** BITMAP_WIDTH and BITMAP_HEIGHT. */
  const BitmapWidth: int := 16
  const BitmapHeight: int := 16

  /** BIT_BYTES: the bytes of a one-bit-per-pixel bitmap of that size. */
  const BitBytes: int := (BitmapWidth / 8) * BitmapHeight

  /** setupTextures' smiley face, two bytes per row. */
  const SmileyBits: seq<Byte> := [
    0x00, 0x00,
    0x00, 0x00,
    0x07, 0xE0,
    0x08, 0x10,
    0x10, 0x08,
    0x20, 0x04,
    0x44, 0x22,
    0x40, 0x02,
    0x40, 0x02,
    0x40, 0x02,
    0x42, 0x42,
    0x23, 0xc4,
    0x10, 0x08,
    0x0c, 0x30,
    0x03, 0xc0,
    0x00, 0x00
  ]

  /** The bitmap is exactly BIT_BYTES long, so the decoder reads all of it. */
  lemma SmileyWellformed()
    ensures BitBytes == 32 && |SmileyBits| == BitBytes
    ensures Wellformed(SmileyBits, BitmapWidth, BitmapHeight)
  {
  }

  /** The second byte of a row is the first one read backwards. */
  predicate ByteMirrors(a: Byte, b: Byte)
  {
    && BitSet(a, 0) == BitSet(b, 7) && BitSet(a, 1) == BitSet(b, 6)
    && BitSet(a, 2) == BitSet(b, 5) && BitSet(a, 3) == BitSet(b, 4)
    && BitSet(a, 4) == BitSet(b, 3) && BitSet(a, 5) == BitSet(b, 2)
    && BitSet(a, 6) == BitSet(b, 1) && BitSet(a, 7) == BitSet(b, 0)
  }

  lemma ByteMirrorsBit(a: Byte, b: Byte, j: nat)
    requires ByteMirrors(a, b) && j < 8
    ensures BitSet(a, j) == BitSet(b, 7 - j)
  {
  }

  /** Row y of the smiley reads the same from either end. */
  predicate RowMirrored(y: int)
    requires 0 <= y < 16
  {
    ByteMirrors(SmileyBits[2 * y], SmileyBits[2 * y + 1])
  }

  /** A pair of literal bytes mirrors, checked bit by bit. */
  lemma LiteralPairMirrors(a: Byte, b: Byte)
    requires (a, b) in {(0x00, 0x00), (0x07, 0xE0), (0x08, 0x10), (0x10, 0x08), (0x20, 0x04), (0x44, 0x22),
                        (0x40, 0x02), (0x42, 0x42), (0x23, 0xC4), (0x0C, 0x30), (0x03, 0xC0)}
    ensures ByteMirrors(a, b)
  {
    PowersOfTwo();
  }

  lemma RowsMirrored(y: int)
    requires 0 <= y < 16
    ensures RowMirrored(y)
  {
    LiteralPairMirrors(SmileyBits[2 * y], SmileyBits[2 * y + 1]);
  }

  /** In a 16-pixel-wide bitmap, pixel (y, x) is bit 7 - x%8 of byte x/8 of row y. */
  lemma RowPixel(bits: seq<Byte>, y: int, x: int)
    requires Wellformed(bits, 16, 16)
    requires 0 <= y < 16 && 0 <= x < 16
    ensures x < 8 ==> PixelSet(bits, 16, 16, y, x) == BitSet(bits[2 * y], 7 - x)
    ensures 8 <= x ==> PixelSet(bits, 16, 16, y, x) == BitSet(bits[2 * y + 1], 15 - x)
  {
    if x < 8 {
      assert x / 8 == 0 && x % 8 == x;
    } else {
      assert x / 8 == 1 && x % 8 == x - 8;
    }
  }

  /** A 16-pixel-wide row whose second byte mirrors its first is symmetric about its centre. */
  lemma MirroredRowSymmetric(bits: seq<Byte>, y: int, x: int)
    requires Wellformed(bits, 16, 16)
    requires 0 <= y < 16 && 0 <= x < 16
    requires ByteMirrors(bits[2 * y], bits[2 * y + 1])
    ensures PixelSet(bits, 16, 16, y, x) == PixelSet(bits, 16, 16, y, 15 - x)
  {
    RowPixel(bits, y, x);
    RowPixel(bits, y, 15 - x);
    if x < 8 {
      ByteMirrorsBit(bits[2 * y], bits[2 * y + 1], 7 - x);
    } else {
      ByteMirrorsBit(bits[2 * y], bits[2 * y + 1], 15 - x);
    }
  }

  /** The smiley face is symmetric about its vertical centre line. */
  lemma SmileySymmetric(y: int, x: int)
    requires 0 <= y < BitmapHeight && 0 <= x < BitmapWidth
    ensures Wellformed(SmileyBits, BitmapWidth, BitmapHeight)
    ensures PixelSet(SmileyBits, BitmapWidth, BitmapHeight, y, x)
        == PixelSet(SmileyBits, BitmapWidth, BitmapHeight, y, BitmapWidth - 1 - x)
  {
    SmileyWellformed();
    RowsMirrored(y);
    MirroredRowSymmetric(SmileyBits, y, x);
  }

  /**
   * setupTextures: the smiley unpacked in opaque red, then handed to a
   * texture. The allocation and the texture name glGenTextures returns are
   * parameters; a name of 0 means the call failed, and the texture is then
   * deleted and left at 0. The result is the name of the bound texture and
   * the pixels uploaded to it.
   */
  method SetupTextures(mallocSucceeds: bool, generated: nat) returns (texture: nat, uploaded: Option<seq<Byte>>)
    ensures texture != 0 <==> mallocSucceeds && generated != 0
    ensures texture != 0 ==> texture == generated
    ensures uploaded.Some? <==> texture != 0
    ensures uploaded.Some? ==> |uploaded.value| == BitmapWidth * BitmapHeight * 4 == 1024
    ensures uploaded.Some? ==> Shows(uploaded.value, SmileyBits, BitmapWidth, BitmapHeight, 255, 0, 0)
  {
    SmileyWellformed();
    var data, _ := BuildMonochromeBitmap(SmileyBits, BitmapWidth, BitmapHeight, 255, 0, 0, mallocSucceeds);
    texture, uploaded := 0, None;
    if data.Some? {
      texture := generated;
      if texture != 0 {
        uploaded := data;
      }
    }
  }

  /** Two pixels the bitmap agrees on decode to the same four bytes. */
  lemma SameBitSameTexel(bits: seq<Byte>, width: int, height: int, red: Byte, green: Byte, blue: Byte,
                         y: int, x: int, x': int)
    requires Wellformed(bits, width, height)
    requires 0 <= y < height && 0 <= x < width && 0 <= x' < width
    requires PixelSet(bits, width, height, y, x) == PixelSet(bits, width, height, y, x')
    ensures var image := Decoded(bits, width, height, red, green, blue);
      && (y * width + x) * 4 + 4 <= |image|
      && (y * width + x') * 4 + 4 <= |image|
      && PixelAt(image, width, y, x) == PixelAt(image, width, y, x')
  {
    DecodedPixel(bits, width, height, red, green, blue, y, x);
    DecodedPixel(bits, width, height, red, green, blue, y, x');
  }

  /**
   * The uploaded texture is itself mirror-symmetric: texel (y, x) and texel
   * (y, 15 - x) carry the same four bytes.
   */
  lemma TextureSymmetric(y: int, x: int)
    requires 0 <= y < BitmapHeight && 0 <= x < BitmapWidth
    ensures Wellformed(SmileyBits, BitmapWidth, BitmapHeight)
    ensures var image := Decoded(SmileyBits, BitmapWidth, BitmapHeight, 255, 0, 0);
      && (y * BitmapWidth + x) * 4 + 4 <= |image|
      && (y * BitmapWidth + (BitmapWidth - 1 - x)) * 4 + 4 <= |image|
      && PixelAt(image, BitmapWidth, y, x) == PixelAt(image, BitmapWidth, y, BitmapWidth - 1 - x)
  {
    SmileySymmetric(y, x);
    SameBitSameTexel(SmileyBits, BitmapWidth, BitmapHeight, 255, 0, 0, y, x, BitmapWidth - 1 - x);
  }
}

=== FILE: demo5.dfy ===
/**
 * Demo 5: the square and the pentagon drawn with glDrawArrays from flat,
 * pre-expanded vertex lists, each placed by a hand-built model-view matrix.
 */
module Demo5 {
  import opened Common
  import opened Mesh
  import opened Transform

  /** setupSquare's squareCoords: two triangles as six (x, y) pairs. */
  const SquareCoords: seq<real> := [
    -0.5, 0.5,   0.5, 0.5,   0.5, -0.5,
    0.5, -0.5,  -0.5, -0.5,  -0.5, 0.5
  ]

  /** setupSquare's squareColors: one float RGB triple per vertex. */
  const SquareColors: seq<real> := [
    1.0, 0.0, 0.0,
    0.0, 1.0, 0.0,
    0.0, 0.0, 1.0,
    0.0, 0.0, 1.0,
    1.0, 1.0, 1.0,
    1.0, 0.0, 0.0
  ]

  /** setupSquare binds the two arrays and returns the number of vertices to draw. */
  function SetupSquare(): (count: int)
    ensures count == |SquareCoords| / 2 == |SquareColors| / 3
    ensures count == |Group(SquareCoords, 2)| == |Group(SquareColors, 3)|
    ensures count % 3 == 0
  {
    6
  }

  /** setupPentagon's pentagonData: three triangles, vertices repeated where they share corners. */
  const PentagonData: seq<ColoredPoint2> := [
    ColoredPoint2(0.0, 0.5, 255, 0, 0),
    ColoredPoint2(0.47, 0.15, 0, 255, 0),
    ColoredPoint2(0.29, -0.4, 0, 0, 255),
    ColoredPoint2(0.29, -0.4, 0, 0, 255),
    ColoredPoint2(-0.29, -0.4, 255, 255, 255),
    ColoredPoint2(0.0, 0.5, 255, 0, 0),
    ColoredPoint2(0.0, 0.5, 255, 0, 0),
    ColoredPoint2(-0.29, -0.4, 255, 255, 255),
    ColoredPoint2(-0.47, 0.15, 255, 255, 0)
  ]

  /** setupPentagon binds the interleaved array and returns the number of vertices to draw. */
  function SetupPentagon(): (count: int)
    ensures count == |PentagonData|
    ensures count % 3 == 0
  {
    9
  }

  /**
   * drawTrianglesAt: load the model-view matrix for (x, y, scale) and draw the
   * first indexCount vertices in order. The result is the stream of positions
   * after the model-view transform.
   */
  function DrawTrianglesAt(x: real, y: real, scale: real, indexCount: int, positions: seq<seq<real>>)
    : (out: seq<Vec4>)
    requires 0 <= indexCount <= |positions|
    requires forall k :: 0 <= k < |positions| ==> |positions[k]| == 2
    ensures |out| == indexCount
    ensures forall k :: 0 <= k < indexCount ==>
      out[k][0] == scale * positions[k][0] + x && out[k][1] == scale * positions[k][1] + y
      && out[k][2] == 0.0 && out[k][3] == 1.0
  {
    var drawn := Draw(positions, ShapeInfo(None, indexCount));
    PlaceModelView(x, y, scale, drawn);
    Place(ModelView(x, y, scale), drawn)
  }
}

=== FILE: demo6.dfy ===
/**
 * Demo 6: the square and the pentagon stored once per corner and drawn with
 * glDrawElements through GLushort index lists.
 */
module Demo6 {
  import opened Common
  import opened Mesh
  import opened Transform

  /** setupSquare's squareCoords: the four corners. */
  const SquareCoords: seq<real> := [
    -0.5, 0.5,
    0.5, 0.5,
    0.5, -0.5,
    -0.5, -0.5
  ]

  /** setupSquare's squareColors: one float RGB triple per corner. */
  const SquareColors: seq<real> := [
    1.0, 0.0, 0.0,
    0.0, 1.0, 0.0,
    0.0, 0.0, 1.0,
    1.0, 1.0, 1.0
  ]

  /** The two triangles of the square, as corner numbers. */
  const SquareIndices: seq<Ushort> := [0, 1, 2, 2, 3, 0]

  /**
   * setupSquare(pInfo): overwrites both fields of the caller's ShapeInfo with
   * the square's index list and count.
   */
  function SetupSquare(previous: ShapeInfo): (info: ShapeInfo)
    ensures info.indices == Some(SquareIndices) && info.count == |SquareIndices|
    ensures Drawable(info, |Group(SquareCoords, 2)|) && Drawable(info, |Group(SquareColors, 3)|)
    ensures |Group(SquareCoords, 2)| == |Group(SquareColors, 3)| == 4
    ensures TriangleList(info)
    ensures Covers(SquareIndices, 4)
  {
    assert SquareIndices[0] == 0 && SquareIndices[1] == 1 && SquareIndices[2] == 2 && SquareIndices[4] == 3;
    ShapeInfo(Some(SquareIndices), 6)
  }

  /** setupPentagon's pentagonData: the five corners, interleaved position and colour. */
  const PentagonData: seq<ColoredPoint2> := [
    ColoredPoint2(0.0, 0.5, 255, 0, 0),
    ColoredPoint2(0.47, 0.15, 0, 255, 0),
    ColoredPoint2(0.29, -0.4, 0, 0, 255),
    ColoredPoint2(-0.29, -0.4, 255, 255, 255),
    ColoredPoint2(-0.47, 0.15, 255, 255, 0)
  ]

  /** The three triangles of the pentagon, fanned out from corner 0. */
  const PentagonIndices: seq<Ushort> := [0, 1, 2, 2, 3, 0, 0, 3, 4]

  /**
   * setupPentagon(pInfo): overwrites both fields of the caller's ShapeInfo with
   * the pentagon's index list and count.
   */
  function SetupPentagon(previous: ShapeInfo): (info: ShapeInfo)
    ensures info.indices == Some(PentagonIndices) && info.count == |PentagonIndices|
    ensures Drawable(info, |PentagonData|)
    ensures TriangleList(info)
    ensures Covers(PentagonIndices, |PentagonData|)
  {
    assert PentagonIndices[0] == 0 && PentagonIndices[1] == 1 && PentagonIndices[2] == 2
        && PentagonIndices[4] == 3 && PentagonIndices[8] == 4;
    ShapeInfo(Some(PentagonIndices), 9)
  }

  /**
   * drawTrianglesAt: load the model-view matrix for (x, y, scale) and call
   * glDrawElements with the shape's index list. The result is the stream of
   * positions after the model-view transform.
   */
  function DrawTrianglesAt(x: real, y: real, scale: real, info: ShapeInfo, positions: seq<seq<real>>)
    : (out: seq<Vec4>)
    requires info.indices.Some? && Drawable(info, |positions|)
    requires forall k :: 0 <= k < |positions| ==> |positions[k]| == 2
    ensures |out| == info.count
    ensures forall k :: 0 <= k < info.count ==>
      var p := positions[info.indices.value[k]];
      out[k][0] == scale * p[0] + x && out[k][1] == scale * p[1] + y && out[k][2] == 0.0 && out[k][3] == 1.0
  {
    PlaceDrawn(x, y, scale, info, positions);
    Place(ModelView(x, y, scale), Draw(positions, info))
  }

  /** The positions a draw fetches, carried through the model-view matrix one by one. */
  lemma PlaceDrawn(x: real, y: real, scale: real, info: ShapeInfo, positions: seq<seq<real>>)
    requires info.indices.Some? && Drawable(info, |positions|)
    requires forall k :: 0 <= k < |positions| ==> |positions[k]| == 2
    ensures forall k :: 0 <= k < |Draw(positions, info)| ==> |Draw(positions, info)[k]| == 2
    ensures |Place(ModelView(x, y, scale), Draw(positions, info))| == info.count
    ensures forall k :: 0 <= k < info.count ==>
      var p, q := positions[info.indices.value[k]], Place(ModelView(x, y, scale), Draw(positions, info))[k];
      q[0] == scale * p[0] + x && q[1] == scale * p[1] + y && q[2] == 0.0 && q[3] == 1.0
  {
    var drawn := Draw(positions, info);
    PlaceModelView(x, y, scale, drawn);
    forall k | 0 <= k < info.count
      ensures drawn[k] == positions[info.indices.value[k]]
    {
    }
  }
}

=== FILE: demo7.dfy ===
/**
 * Demo 7: Demo 6's indexed square and pentagon, animated for 400 frames; the
 * shapes circle the centre with positions cos(i/30) and sin(i/30).
 */
module Demo7 {
  import opened Common
  import opened Mesh
  import Demo6

  /** The number of frames the animation loop runs. */
  const FrameCount: int := 400

  /** setupSquare's squareCoords: the four corners. */
  const SquareCoords: seq<real> := [
    -0.5, 0.5,
    0.5, 0.5,
    0.5, -0.5,
    -0.5, -0.5
  ]

  /** setupSquare's squareColors: one float RGB triple per corner. */
  const SquareColors: seq<real> := [
    1.0, 0.0, 0.0,
    0.0, 1.0, 0.0,
    0.0, 0.0, 1.0,
    1.0, 1.0, 1.0
  ]

  /** The two triangles of the square, as corner numbers. */
  const SquareIndices: seq<Ushort> := [0, 1, 2, 2, 3, 0]

  /** setupSquare(pInfo): both fields of the caller's ShapeInfo are overwritten. */
  function SetupSquare(previous: ShapeInfo): (info: ShapeInfo)
    ensures info.indices == Some(SquareIndices) && info.count == |SquareIndices| == 6
    ensures Drawable(info, |Group(SquareCoords, 2)|) && Drawable(info, |Group(SquareColors, 3)|)
    ensures |Group(SquareCoords, 2)| == |Group(SquareColors, 3)| == 4
    ensures TriangleList(info)
  {
    ShapeInfo(Some(SquareIndices), 6)
  }

  /** setupPentagon's pentagonData: the five corners. */
  const PentagonData: seq<ColoredPoint2> := [
    ColoredPoint2(0.0, 0.5, 255, 0, 0),
    ColoredPoint2(0.47, 0.15, 0, 255, 0),
    ColoredPoint2(0.29, -0.4, 0, 0, 255),
    ColoredPoint2(-0.29, -0.4, 255, 255, 255),
    ColoredPoint2(-0.47, 0.15, 255, 255, 0)
  ]

  /** The three triangles of the pentagon. */
  const PentagonIndices: seq<Ushort> := [0, 1, 2, 2, 3, 0, 0, 3, 4]

  /** setupPentagon(pInfo): both fields of the caller's ShapeInfo are overwritten. */
  function SetupPentagon(previous: ShapeInfo): (info: ShapeInfo)
    ensures info.indices == Some(PentagonIndices) && info.count == |PentagonIndices| == 9
    ensures Drawable(info, |PentagonData|) && |PentagonData| == 5
    ensures TriangleList(info)
  {
    ShapeInfo(Some(PentagonIndices), 9)
  }

  /**
   * The tables and setups are Demo 6's, so each DrawCall is rendered by
   * Demo6.DrawTrianglesAt, whose model-view matrix Demo 7 repeats unchanged.
   */
  lemma SameShapesAsDemo6(previous: ShapeInfo)
    ensures SquareCoords == Demo6.SquareCoords && SquareColors == Demo6.SquareColors
    ensures SquareIndices == Demo6.SquareIndices
    ensures PentagonData == Demo6.PentagonData && PentagonIndices == Demo6.PentagonIndices
    ensures SetupSquare(previous) == Demo6.SetupSquare(previous)
    ensures SetupPentagon(previous) == Demo6.SetupPentagon(previous)
  {
  }

  /** One drawTrianglesAt(x, y, scale, &info) call, with the ShapeInfo as it stood at the call. */
  datatype DrawCall = DrawCall(x: real, y: real, scale: real, info: ShapeInfo)

  /**
   * The draws of one frame. `uninit` is the value of the freshly declared
   * `ShapeInfo info` before setupSquare fills it in. A large square stays at
   * the centre; a small square and three pentagons sit on a circle of radius
   * 0.5 (when cosVal and sinVal are a cosine and a sine), the small square
   * opposite the first pentagon and the other two pentagons its mirror images.
   */
  function Frame(uninit: ShapeInfo, cosVal: real, sinVal: real): (calls: seq<DrawCall>)
    ensures |calls| == 5
    ensures calls[0].x == 0.0 && calls[0].y == 0.0 && calls[0].scale == 0.5
    ensures forall k :: 1 <= k < 5 ==>
      calls[k].x * calls[k].x + calls[k].y * calls[k].y == 0.25 * (cosVal * cosVal + sinVal * sinVal)
    ensures calls[1].x == -calls[2].x && calls[1].y == -calls[2].y && calls[1].scale == 0.25
    ensures calls[3].x == calls[2].x && calls[3].y == -calls[2].y
    ensures calls[4].x == -calls[2].x && calls[4].y == calls[2].y
    ensures forall k :: 2 <= k < 5 ==> calls[k].scale == 0.5
  {
    var square := SetupSquare(uninit);
    var pentagon := SetupPentagon(square);
    [ DrawCall(0.0, 0.0, 0.5, square),
      DrawCall(0.5 * cosVal, 0.5 * sinVal, 0.25, square),
      DrawCall(-0.5 * cosVal, -0.5 * sinVal, 0.5, pentagon),
      DrawCall(-0.5 * cosVal, 0.5 * sinVal, 0.5, pentagon),
      DrawCall(0.5 * cosVal, -0.5 * sinVal, 0.5, pentagon) ]
  }

  /**
   * Reusing one ShapeInfo leaves nothing stale: whatever it held before, each
   * frame draws the square twice with its own indices and count, then the
   * pentagon three times with its own.
   */
  lemma FrameUsesFreshShapes(uninit: ShapeInfo, cosVal: real, sinVal: real)
    ensures |Frame(uninit, cosVal, sinVal)| == 5
    ensures forall k :: 0 <= k < 2 ==> Frame(uninit, cosVal, sinVal)[k].info == ShapeInfo(Some(SquareIndices), 6)
    ensures forall k :: 2 <= k < 5 ==> Frame(uninit, cosVal, sinVal)[k].info == ShapeInfo(Some(PentagonIndices), 9)
    ensures forall other :: Frame(other, cosVal, sinVal) == Frame(uninit, cosVal, sinVal)
  {
  }

  /**
   * The animation loop `for (int i = 0; i < 400; i++)`: frame i is drawn with
   * cos(i/30) and sin(i/30). The trigonometric functions are parameters.
   */
  method RunAnimation(cos: real -> real, sin: real -> real, uninit: ShapeInfo) returns (frames: seq<seq<DrawCall>>)
    ensures |frames| == FrameCount
    ensures forall i :: 0 <= i < |frames| ==>
      frames[i] == Frame(uninit, cos(i as real / 30.0), sin(i as real / 30.0))
  {
    frames := [];
    var i := 0;
    while i < FrameCount
      invariant 0 <= i <= FrameCount
      invariant |frames| == i
      invariant forall j :: 0 <= j < i ==> frames[j] == Frame(uninit, cos(j as real / 30.0), sin(j as real / 30.0))
    {
      var sinVal := sin(i as real / 30.0);
      var cosVal := cos(i as real / 30.0);
      frames := frames + [Frame(uninit, cosVal, sinVal)];
      i := i + 1;
    }
  }
}

=== FILE: demo8.dfy ===
/**
 * Demo 8: the pentagon alone, now also sweeping in depth under a perspective
 * frustum, with the model-view built from gluLookAt and glScaled.
 */
module Demo8 {
  import opened Common
  import opened Mesh
  import opened Transform
  import opened Projection

  /** CENTER_Z: the distance from the camera. */
  const CenterZ: real := 2.0

  /** DEPTH_OF_FIELD. */
  const DepthOfField: real := 2.0

  /** The number of frames the animation loop runs. */
  const FrameCount: int := 400

  /** The frustum main passes to glFrustum. */
  const ViewFrustum: Frustum := FromDepthOfField(Ratio, CenterZ, DepthOfField)

  /** The near plane is 1 and the far plane 3: a valid perspective projection. */
  lemma ViewFrustumPlanes()
    ensures ViewFrustum.near == 1.0 && ViewFrustum.far == 3.0
    ensures Valid(ViewFrustum)
  {
    FromDepthOfFieldValid(Ratio, CenterZ, DepthOfField);
  }

  /** setupPentagon's pentagonData: the five corners. */
  const PentagonData: seq<ColoredPoint2> := [
    ColoredPoint2(0.0, 0.5, 255, 0, 0),
    ColoredPoint2(0.47, 0.15, 0, 255, 0),
    ColoredPoint2(0.29, -0.4, 0, 0, 255),
    ColoredPoint2(-0.29, -0.4, 255, 255, 255),
    ColoredPoint2(-0.47, 0.15, 255, 255, 0)
  ]

  /** The three triangles of the pentagon. */
  const PentagonIndices: seq<Ushort> := [0, 1, 2, 2, 3, 0, 0, 3, 4]

  /** setupPentagon(pInfo): both fields of the caller's ShapeInfo are overwritten. */
  function SetupPentagon(previous: ShapeInfo): (info: ShapeInfo)
    ensures info.indices == Some(PentagonIndices) && info.count == |PentagonIndices| == 9
    ensures Drawable(info, |PentagonData|) && |PentagonData| == 5
    ensures TriangleList(info)
    ensures Covers(PentagonIndices, |PentagonData|)
  {
    assert PentagonIndices[0] == 0 && PentagonIndices[1] == 1 && PentagonIndices[2] == 2
        && PentagonIndices[4] == 3 && PentagonIndices[8] == 4;
    ShapeInfo(Some(PentagonIndices), 9)
  }

  /** `depth = 1. - i/200.` for frame i, as an exact rational. */
  function Depth(i: int): (depth: real)
    ensures 200.0 * (1.0 - depth) == i as real
    ensures depth <= 1.0 <==> 0 <= i
  {
    1.0 - i as real / 200.0
  }

  /**
   * The sweep starts at 1 and falls strictly from frame to frame, but over the
   * 400 frames it never reaches -1: the last frame sits at -0.995.
   */
  lemma DepthSweep(i: int, j: int)
    requires 0 <= i < j < FrameCount
    ensures Depth(0) == 1.0
    ensures Depth(j) < Depth(i)
    ensures -1.0 < Depth(j) <= 1.0 && -1.0 < Depth(i) <= 1.0
    ensures Depth(FrameCount - 1) == -0.995
  {
  }

  /** One drawTrianglesAt(x, y, z, scale, &info) call. */
  datatype DrawCall = DrawCall(x: real, y: real, z: real, scale: real, info: ShapeInfo)

  /**
   * The three pentagon draws of frame i: all at the frame's depth, shrinking
   * from one draw to the next, and placed at mirror images of one another on
   * a circle of radius 0.707 (when cosVal and sinVal are a cosine and a sine).
   */
  function Frame(uninit: ShapeInfo, i: int, cosVal: real, sinVal: real): (calls: seq<DrawCall>)
    ensures |calls| == 3
    ensures forall k :: 0 <= k < 3 ==> calls[k].info == SetupPentagon(uninit) && calls[k].z == Depth(i)
    ensures forall k :: 0 <= k < 3 ==>
      calls[k].x * calls[k].x + calls[k].y * calls[k].y == 0.707 * 0.707 * (cosVal * cosVal + sinVal * sinVal)
    ensures calls[0].scale > calls[1].scale > calls[2].scale > 0.0
    ensures calls[1].x == calls[0].x && calls[1].y == -calls[0].y
    ensures calls[2].x == -calls[0].x && calls[2].y == calls[0].y
  {
    var depth := Depth(i);
    var pentagon := SetupPentagon(uninit);
    [ DrawCall(-0.707 * cosVal, -0.707 * sinVal, depth, 0.5, pentagon),
      DrawCall(-0.707 * cosVal, 0.707 * sinVal, depth, 0.4, pentagon),
      DrawCall(0.707 * cosVal, -0.707 * sinVal, depth, 0.3, pentagon) ]
  }

  /**
   * The animation loop `for (int i = 0; i < 400; i++)`: frame i is drawn at
   * depth 1 - i/200 with cos(i/30) and sin(i/30), given as parameters.
   */
  method RunAnimation(cos: real -> real, sin: real -> real, uninit: ShapeInfo) returns (frames: seq<seq<DrawCall>>)
    ensures |frames| == FrameCount
    ensures forall i :: 0 <= i < |frames| ==>
      frames[i] == Frame(uninit, i, cos(i as real / 30.0), sin(i as real / 30.0))
  {
    frames := [];
    var i := 0;
    while i < FrameCount
      invariant 0 <= i <= FrameCount
      invariant |frames| == i
      invariant forall j :: 0 <= j < i ==> frames[j] == Frame(uninit, j, cos(j as real / 30.0), sin(j as real / 30.0))
    {
      var sinVal := sin(i as real / 30.0);
      var cosVal := cos(i as real / 30.0);
      frames := frames + [Frame(uninit, i, cosVal, sinVal)];
      i := i + 1;
    }
  }

  /** Every draw of every frame is of the full pentagon, at that frame's depth, strictly inside (-1, 1]. */
  lemma FramesDrawPentagonAtDepth(uninit: ShapeInfo, i: int, cosVal: real, sinVal: real)
    requires 0 <= i < FrameCount
    ensures |Frame(uninit, i, cosVal, sinVal)| == 3
    ensures forall k :: 0 <= k < 3 ==>
      var call := Frame(uninit, i, cosVal, sinVal)[k];
      call.info == ShapeInfo(Some(PentagonIndices), 9) && call.z == Depth(i) && -1.0 < call.z <= 1.0
  {
  }
}

=== FILE: mesh.dfy ===
/**
 * Triangle meshes as the demos hand them to OpenGL: vertex attribute arrays,
 * an optional index list, and the draw call that turns them into the ordered
 * stream of vertices the pipeline assembles into triangles.
 */
module Mesh {
  import opened Common

  /**
   * The demos' ShapeInfo record: the index list handed to glDrawElements
   * (None when the shape is drawn with glDrawArrays) and the vertex count.
   */
  datatype ShapeInfo = ShapeInfo(indices: Option<seq<Ushort>>, count: int)

  /** An interleaved 2-D vertex: float position, then an unsigned-byte colour. */
  datatype ColoredPoint2 = ColoredPoint2(x: real, y: real, red: Byte, green: Byte, blue: Byte)

  /** An interleaved 3-D vertex: float position, then an unsigned-byte colour. */
  datatype ColoredPoint3 = ColoredPoint3(x: real, y: real, z: real, red: Byte, green: Byte, blue: Byte)

  /** A 3-D vertex with a colour and a texture coordinate. */
  datatype TexturedPoint3 = TexturedPoint3(x: real, y: real, z: real, red: Byte, green: Byte, blue: Byte,
                                           texU: real, texV: real)

  /** What glVertexPointer(2, GL_FLOAT, sizeof(vertex), &data[0].x) reads: each vertex's (x, y). */
  function Positions2(data: seq<ColoredPoint2>): (ps: seq<seq<real>>)
    ensures |ps| == |data|
    ensures forall k :: 0 <= k < |ps| ==> ps[k] == [data[k].x, data[k].y]
    ensures forall k :: 0 <= k < |ps| ==> |ps[k]| == 2
  {
    seq(|data|, k requires 0 <= k < |data| => [data[k].x, data[k].y])
  }

  /**
   * The vertices a tightly packed attribute array holds when it is bound with
   * `size` components per vertex and stride 0 (glVertexPointer/glColorPointer):
   * vertex i is the components [i*size, i*size + size); a trailing partial
   * vertex is never read.
   */
  function Group<T>(flat: seq<T>, size: nat): (vs: seq<seq<T>>)
    requires 0 < size
    ensures |vs| * size <= |flat| < |vs| * size + size
    ensures Uniform(vs, size)
    decreases |flat|
  {
    if |flat| < size then [] else [flat[..size]] + Group(flat[size..], size)
  }

  /** The flat attribute array of a vertex list: components laid out one vertex after another. */
  function Flatten<T>(vs: seq<seq<T>>): seq<T>
  {
    if |vs| == 0 then [] else vs[0] + Flatten(vs[1..])
  }

  /** True when every vertex has exactly `size` components. */
  predicate Uniform<T>(vs: seq<seq<T>>, size: nat)
  {
    forall i :: 0 <= i < |vs| ==> |vs[i]| == size
  }

  /** Vertex i of a packed array is exactly its i-th block of `size` components. */
  lemma {:induction false} GroupReadsBlock<T>(flat: seq<T>, size: nat, i: nat)
    requires 0 < size
    requires i < |Group(flat, size)|
    ensures i * size + size <= |flat|
    ensures Group(flat, size)[i] == flat[i * size .. i * size + size]
    decreases i
  {
    if i > 0 {
      var rest := flat[size..];
      GroupReadsBlock(rest, size, i - 1);
      assert Group(flat, size)[i] == Group(rest, size)[i - 1];
      assert (i - 1) * size + size == i * size;
      assert rest[(i - 1) * size .. (i - 1) * size + size] == flat[i * size .. i * size + size];
    }
  }

  /** Grouping takes off the first `size` components as one vertex and groups the rest. */
  lemma FlattenGroupStep<T>(flat: seq<T>, size: nat)
    requires 0 < size <= |flat|
    ensures |Group(flat, size)| * size == |Group(flat[size..], size)| * size + size
    ensures Flatten(Group(flat, size)) == flat[..size] + Flatten(Group(flat[size..], size))
  {
    var n := |Group(flat[size..], size)|;
    assert |Group(flat, size)| == n + 1;
    SuccTimes(n, size);
    assert Group(flat, size)[1..] == Group(flat[size..], size);
  }

  lemma SuccTimes(n: nat, size: nat)
    ensures (n + 1) * size == n * size + size
  {
  }

  /** Laying the grouped vertices out again gives back every component the grouping read. */
  lemma {:induction false} FlattenGroup<T>(flat: seq<T>, size: nat)
    requires 0 < size
    ensures Flatten(Group(flat, size)) == flat[..|Group(flat, size)| * size]
    decreases |flat|
  {
    if |flat| >= size {
      var rest := flat[size..];
      FlattenGroupStep(flat, size);
      FlattenGroup(rest, size);
      var m := |Group(rest, size)| * size;
      assert flat[..m + size] == flat[..size] + rest[..m];
    }
  }

  /** Grouping the packed array of same-sized vertices gives back the vertices. */
  lemma {:induction false} GroupFlatten<T>(vs: seq<seq<T>>, size: nat)
    requires 0 < size && Uniform(vs, size)
    ensures |Flatten(vs)| == |vs| * size
    ensures Group(Flatten(vs), size) == vs
    decreases |vs|
  {
    if |vs| > 0 {
      GroupFlatten(vs[1..], size);
      var flat := Flatten(vs);
      assert flat == vs[0] + Flatten(vs[1..]);
      assert (|vs| - 1) * size + size == |vs| * size;
      assert flat[..size] == vs[0];
      assert flat[size..] == Flatten(vs[1..]);
      assert vs == [vs[0]] + vs[1..];
    }
  }

  /**
   * The vertices an index list selects, in index order: one vertex per index,
   * each taken from the table, and a repeated index repeats its vertex.
   */
  function Expand<V>(verts: seq<V>, idx: seq<int>): (out: seq<V>)
    requires forall k :: 0 <= k < |idx| ==> 0 <= idx[k] < |verts|
    ensures |out| == |idx|
    ensures forall k :: 0 <= k < |out| ==> out[k] in verts
    ensures forall j, k :: 0 <= j < |idx| && 0 <= k < |idx| && idx[j] == idx[k] ==> out[j] == out[k]
  {
    seq(|idx|, k requires 0 <= k < |idx| => verts[idx[k]])
  }

  /** Reading the positions commutes with fetching through an index list. */
  lemma PositionsCommuteWithExpand(data: seq<ColoredPoint2>, idx: seq<int>)
    requires forall k :: 0 <= k < |idx| ==> 0 <= idx[k] < |data|
    ensures Positions2(Expand(data, idx)) == Expand(Positions2(data), idx)
  {
  }

  /** The index list 0, 1, ..., n-1. */
  function Iota(n: nat): seq<int>
  {
    seq(n, k => k)
  }

  /**
   * What a draw call needs from a shape to stay inside its `n` vertices:
   * a non-negative count, and either count in-range indices or count <= n.
   */
  predicate Drawable(info: ShapeInfo, n: nat)
  {
    && 0 <= info.count
    && match info.indices
       case Some(idx) =>
         info.count <= |idx| && forall k :: 0 <= k < info.count ==> idx[k] < n
       case None => info.count <= n
  }

  /** GL_TRIANGLES consumes vertices three at a time: the count is whole triangles. */
  predicate TriangleList(info: ShapeInfo)
  {
    info.count % 3 == 0
  }

  /** Every one of the `n` vertices is referenced by some index. */
  predicate Covers(idx: seq<Ushort>, n: nat)
  {
    forall v :: 0 <= v < n ==> v in idx
  }

  /** The vertex numbers a draw reads, in order. */
  function Fetched(info: ShapeInfo, n: nat): (f: seq<int>)
    requires Drawable(info, n)
    ensures |f| == info.count
    ensures forall k :: 0 <= k < |f| ==> 0 <= f[k] < n
  {
    match info.indices
    case Some(idx) => idx[..info.count]
    case None => Iota(info.count)
  }

  /**
   * The vertex stream one draw emits: glDrawElements(GL_TRIANGLES, count, ...,
   * indices) when the shape has indices, glDrawArrays(GL_TRIANGLES, 0, count)
   * when it has none.
   */
  function Draw<V>(verts: seq<V>, info: ShapeInfo): (out: seq<V>)
    requires Drawable(info, |verts|)
    ensures |out| == info.count
    ensures info.indices.Some? ==>
      forall k :: 0 <= k < info.count ==> out[k] == verts[info.indices.value[k]]
    ensures info.indices.None? ==> out == verts[..info.count]
  {
    Expand(verts, Fetched(info, |verts|))
  }

  /** An index list 0..n-1 draws exactly what the sequential path draws. */
  lemma IdentityIndicesDrawSequentially<V>(verts: seq<V>, n: nat)
    requires n <= |verts| && n <= 0x1_0000
    ensures Drawable(ShapeInfo(Some(Iota(n)), n), |verts|)
    ensures Draw(verts, ShapeInfo(Some(Iota(n)), n)) == Draw(verts, ShapeInfo(None, n))
  {
  }
}

=== FILE: projection.dfy ===
/**
 * The view volumes the perspective demos set up with glFrustum (or vmath's
 * frustum): near and far planes derived from a viewing distance and a depth
 * of field.
 */
module Projection {

  datatype Frustum = Frustum(left: real, right: real, bottom: real, top: real, near: real, far: real)

  /** A frustum that defines a perspective projection: non-empty sides, 0 < near < far. */
  predicate Valid(f: Frustum)
  {
    f.left < f.right && f.bottom < f.top && 0.0 < f.near < f.far
  }

  /** The window's aspect ratio, 640 / 480. */
  const Ratio: real := 640.0 / 480.0

  /**
   * The frustum every perspective demo passes: the aspect ratio across, -1..1
   * up, and the planes CENTER_Z -/+ DEPTH_OF_FIELD/2.
   */
  function FromDepthOfField(ratio: real, centerZ: real, depthOfField: real): (f: Frustum)
    ensures f.left == -f.right && f.right == ratio
    ensures f.bottom == -f.top && f.top == 1.0
    ensures f.far - f.near == depthOfField
  {
    Frustum(-ratio, ratio, -1.0, 1.0, centerZ - depthOfField / 2.0, centerZ + depthOfField / 2.0)
  }

  /** The frustum is valid exactly when the ratio and depth of field are positive and the near plane stays in front of the eye. */
  lemma FromDepthOfFieldValid(ratio: real, centerZ: real, depthOfField: real)
    ensures Valid(FromDepthOfField(ratio, centerZ, depthOfField))
        <==> 0.0 < ratio && 0.0 < depthOfField && depthOfField / 2.0 < centerZ
  {
  }

  /** The planes recover the parameters: centred on CENTER_Z, DEPTH_OF_FIELD apart. */
  lemma FromDepthOfFieldCentred(ratio: real, centerZ: real, depthOfField: real)
    ensures var f := FromDepthOfField(ratio, centerZ, depthOfField);
      (f.near + f.far) / 2.0 == centerZ && f.far - f.near == depthOfField
  {
  }

  /** A point at eye-space depth z (the camera looks down -z) lies between the near and far planes. */
  predicate InDepthRange(f: Frustum, z: real)
  {
    -f.far <= z <= -f.near
  }
}

=== FILE: transform.dfy ===
/**
 * The hand-built model-view matrices of the two-dimensional demos, stored the
 * way glLoadMatrixd reads them: sixteen entries, column after column.
 */
module Transform {

  /** A 4x4 matrix in column-major order: entry (row, col) is at index 4*col + row. */
  type Mat4 = m: seq<real> | |m| == 16 witness seq(16, _ => 0.0)

  /** A homogeneous point (x, y, z, w). */
  type Vec4 = v: seq<real> | |v| == 4 witness [0.0, 0.0, 0.0, 1.0]

  function Entry(m: Mat4, row: nat, col: nat): real
    requires row < 4 && col < 4
  {
    m[4 * col + row]
  }

  /** The matrix applied to a column vector. */
  function Apply(m: Mat4, v: Vec4): Vec4
  {
    seq(4, r requires 0 <= r < 4 =>
      Entry(m, r, 0) * v[0] + Entry(m, r, 1) * v[1] + Entry(m, r, 2) * v[2] + Entry(m, r, 3) * v[3])
  }

  /** The matrix product a * b (b is applied first). */
  function Mul(a: Mat4, b: Mat4): Mat4
  {
    seq(16, i requires 0 <= i < 16 =>
      var r, c := i % 4, i / 4;
      Entry(a, r, 0) * Entry(b, 0, c) + Entry(a, r, 1) * Entry(b, 1, c)
      + Entry(a, r, 2) * Entry(b, 2, c) + Entry(a, r, 3) * Entry(b, 3, c))
  }

  /** A two-component position as the pipeline sees it: z = 0 and w = 1 are filled in. */
  function Homogeneous(p: seq<real>): Vec4
    requires |p| == 2
  {
    [p[0], p[1], 0.0, 1.0]
  }

  /** Every position of a list carried through one matrix. */
  function Place(m: Mat4, ps: seq<seq<real>>): (out: seq<Vec4>)
    requires forall k :: 0 <= k < |ps| ==> |ps[k]| == 2
  {
    seq(|ps|, k requires 0 <= k < |ps| => Apply(m, Homogeneous(ps[k])))
  }

  /**
   * The model-view matrix drawTrianglesAt loads in Demos 5, 6 and 7: uniform
   * x/y scale, then a move to (x, y). Read column by column, the scale sits on
   * the diagonal and the offset in the last column.
   */
  function ModelView(x: real, y: real, scale: real): (m: Mat4)
    ensures Entry(m, 0, 0) == scale && Entry(m, 1, 1) == scale
    ensures Entry(m, 2, 2) == 1.0 && Entry(m, 3, 3) == 1.0
    ensures Entry(m, 0, 3) == x && Entry(m, 1, 3) == y
    ensures forall r, c :: 0 <= r < 4 && 0 <= c < 4 && r != c && !(c == 3 && r < 2) ==> Entry(m, r, c) == 0.0
  {
    [scale, 0.0,   0.0, 0.0,
     0.0,   scale, 0.0, 0.0,
     0.0,   0.0,   1.0, 0.0,
     x,     y,     0.0, 1.0]
  }

  /** The pure translation matrix of Demo 4's drawSquareAt: the identity with (x, y) in the last column. */
  function Translation(x: real, y: real): (m: Mat4)
    ensures forall r :: 0 <= r < 4 ==> Entry(m, r, r) == 1.0
    ensures Entry(m, 0, 3) == x && Entry(m, 1, 3) == y
    ensures forall r, c :: 0 <= r < 4 && 0 <= c < 4 && r != c && !(c == 3 && r < 2) ==> Entry(m, r, c) == 0.0
  {
    [1.0, 0.0, 0.0, 0.0,
     0.0, 1.0, 0.0, 0.0,
     0.0, 0.0, 1.0, 0.0,
     x,   y,   0.0, 1.0]
  }

  /** The matrix glScaled(sx, sy, sz) multiplies onto the model-view stack: the factors on the diagonal, zero elsewhere. */
  function Scaling(sx: real, sy: real, sz: real): (m: Mat4)
    ensures Entry(m, 0, 0) == sx && Entry(m, 1, 1) == sy && Entry(m, 2, 2) == sz && Entry(m, 3, 3) == 1.0
    ensures forall r, c :: 0 <= r < 4 && 0 <= c < 4 && r != c ==> Entry(m, r, c) == 0.0
  {
    [sx,  0.0, 0.0, 0.0,
     0.0, sy,  0.0, 0.0,
     0.0, 0.0, sz,  0.0,
     0.0, 0.0, 0.0, 1.0]
  }

  /** The model-view matrix scales a point about the origin, keeps its depth, then moves it to (x, y). */
  lemma ModelViewAction(x: real, y: real, scale: real, v: Vec4)
    requires v[3] == 1.0
    ensures Apply(ModelView(x, y, scale), v) == [scale * v[0] + x, scale * v[1] + y, v[2], 1.0]
  {
    var m, a := ModelView(x, y, scale), Apply(ModelView(x, y, scale), v);
    assert a[0] == scale * v[0] + x by { assert Entry(m, 0, 0) == scale && Entry(m, 0, 3) == x; }
    assert a[1] == scale * v[1] + y by { assert Entry(m, 1, 1) == scale && Entry(m, 1, 3) == y; }
    assert a[2] == v[2] by { assert Entry(m, 2, 2) == 1.0; }
    assert a[3] == 1.0 by { assert Entry(m, 3, 3) == 1.0; }
  }

  /** Read column-major, the hand-built matrix is the translation composed after the x/y scaling. */
  lemma ModelViewIsTranslateAfterScale(x: real, y: real, scale: real)
    ensures ModelView(x, y, scale) == Mul(Translation(x, y), Scaling(scale, scale, 1.0))
  {
  }

  /** With scale 1 the model-view matrix is Demo 4's translation matrix. */
  lemma ModelViewUnitScale(x: real, y: real)
    ensures ModelView(x, y, 1.0) == Translation(x, y)
  {
  }

  /** glScaled(s, s, 1) scales x and y and leaves z untouched. */
  lemma FlatScalingKeepsDepth(scale: real, v: Vec4)
    requires v[3] == 1.0
    ensures Apply(Scaling(scale, scale, 1.0), v) == [scale * v[0], scale * v[1], v[2], 1.0]
  {
    var m, a := Scaling(scale, scale, 1.0), Apply(Scaling(scale, scale, 1.0), v);
    assert a[0] == scale * v[0] by { assert Entry(m, 0, 0) == scale; }
    assert a[1] == scale * v[1] by { assert Entry(m, 1, 1) == scale; }
    assert a[2] == v[2] by { assert Entry(m, 2, 2) == 1.0; }
    assert a[3] == 1.0 by { assert Entry(m, 3, 3) == 1.0; }
  }

  /** Placing 2-D positions with the model-view matrix: each lands at scale * p + (x, y) on the z = 0 plane. */
  lemma PlaceModelView(x: real, y: real, scale: real, ps: seq<seq<real>>)
    requires forall k :: 0 <= k < |ps| ==> |ps[k]| == 2
    ensures |Place(ModelView(x, y, scale), ps)| == |ps|
    ensures forall k :: 0 <= k < |ps| ==>
      Place(ModelView(x, y, scale), ps)[k] == [scale * ps[k][0] + x, scale * ps[k][1] + y, 0.0, 1.0]
  {
    forall k | 0 <= k < |ps|
      ensures Place(ModelView(x, y, scale), ps)[k] == [scale * ps[k][0] + x, scale * ps[k][1] + y, 0.0, 1.0]
    {
      var h: Vec4 := [ps[k][0], ps[k][1], 0.0, 1.0];
      assert Homogeneous(ps[k]) == h;
      assert Place(ModelView(x, y, scale), ps)[k] == Apply(ModelView(x, y, scale), h);
      ModelViewAction(x, y, scale, h);
      var r, e := Apply(ModelView(x, y, scale), h), [scale * ps[k][0] + x, scale * ps[k][1] + y, 0.0, 1.0];
      assert r[0] == e[0] && r[1] == e[1] && r[2] == e[2] && r[3] == e[3];
    }
  }
}
